=== FILE: README.md ===
# A verified model of a small CPU rasterizer

This project models, in Dafny, the loader, the raster engine and the shadow
pass of a small teaching software rasterizer:

- **The OBJ loader** (`Model::load` and the face accessors). A file is read
  line by line, and the first word of each line picks what the line adds:
  - `v` and `vn` add a homogeneous point `(x, y, z, 1)`, its coordinates
    extracted one `double` after another from the rest of the line;
  - `vt` adds a texture coordinate `(u, 1 - v)`;
  - `f` adds up to three face corners;
  - every other line is ignored.

  A corner token `v/t/n` is split on `/` and read with `std::stoi`. Its
  1-based indices are stored 0-based in three parallel arrays. An index that
  is missing, empty or not positive is stored as 0.
- **The raster engine** (`init_perspective`, `init_viewport`,
  `init_zbuffer` and `rasterize`):
  - the projection matrices and how they act on points;
  - the depth buffer, which starts at the sentinel -1000;
  - the pixel loop of `rasterize`: the bounding box truncated to `int` and
    clamped to the framebuffer, the inside test, the strict depth test, the
    shader's discard flag, and the joint write of depth and colour.
- **The shadow pass of the main program**:
  - the per-pixel `lit` decision, which tests whether the reconstructed
    point's z is below -100, whether the point falls off the shadow map, and
    a depth comparison with the bias 0.03;
  - the mask loop, the mask image and the darkening loop;
  - `drop_zbuffer`, which skips cells below -100 and normalises the other
    depths to grey levels.

Depths and coordinates are Dafny `real`s, so every property holds for exact
arithmetic. Images and buffers are flat sequences indexed by `x + y * width`.
Each loop over them is a method that returns the new sequence.

Modules, following the source's structure:

| module | file | covers |
|---|---|---|
| `Geometry` | geometry.dfy | vectors, 4x4 matrices, colours, `static_cast<int>` |
| `Grid` | grid.dfy | the flat pixel index and the `x`/`y` double loop |
| `ObjText` | obj_text.dfy | `>>` word extraction, `getline(.., '/')`, `std::stoi`, reading a `double` |
| `ObjModel` | obj_model.dfy | `Model::load`, `nverts`, `nfaces`, `vert`, `normal`, `uv` |
| `Transform` | transform.dfy | `init_perspective`, `init_viewport` and their inverses |
| `Raster` | raster.dfy | `init_zbuffer`, `rasterize`, the face loop |
| `Shadow` | shadow.dfy | the `lit` predicate, mask, darkening, `drop_zbuffer` |

Three constants of the code shape the model:

- The depth buffer starts at -1000 in every cell (`Raster.Sentinel`).
- The mask loop does not test the stored depth itself. It tests the `z` of
  the reconstructed point `M * (x, y, depth, 1)` against -100
  (`Shadow.DepthFloor`), and `Shadow.Lit` follows it.
- `drop_zbuffer` starts `minz` at +1000 and `maxz` at -1000, and these
  starting values take part in the minimum and maximum.
  `Shadow.DepthRange` keeps them.

## Model

| member | source | states |
|---|---|---|
| Geometry.MatMulAction | main.cpp:165 | the product of two matrices acts on a point as the first applied after the second, which is what makes folding `Viewport * Perspective * ModelView` into one matrix sound |
| Geometry.Trunc | our_gl.cpp:51-55 | `static_cast<int>` truncates toward zero: for a non-negative value the result is within one below it, for a negative value within one above it |
| Geometry.Min3 | our_gl.cpp:48-49 | the lower bound of `std::minmax` is one of the three coordinates and no greater than any of them |
| Geometry.Max3 | our_gl.cpp:48-49 | the upper bound of `std::minmax` is one of the three coordinates and no less than any of them |
| Grid.IdxInBounds | our_gl.cpp:65 | for a pixel of a `width` x `height` image, `x + y * width` lies in `[0, width * height)` |
| Grid.IdxInjective | our_gl.cpp:68-69 | two different pixels never share a buffer cell, so a write at one pixel leaves every other pixel alone |
| Grid.EveryIndexIsAPixel | main.cpp:139 | every cell `i` of a `width * height` buffer is the cell of the pixel `(i % width, i / width)`, which lies in the image |
| Grid.MapPixels | main.cpp:167-177 | the `x`-outer, `y`-inner loop over the image sets each pixel's cell from that pixel's inputs and nothing else |
| ObjText.WordsAreWords | model.cpp:33-35 | each word `>>` extracts from a line is non-empty and contains no whitespace |
| ObjText.WordsUnwords | model.cpp:58-59 | words written out with blanks between them are extracted back exactly, in order |
| ObjText.Segments | model.cpp:64 | no segment `getline(token_ss, segment, '/')` yields contains a slash |
| ObjText.SegmentsRejoin | model.cpp:61-64 | the segments rejoined with `/` give back the token, less one trailing `/` that `getline` never reports as an empty segment |
| ObjText.StoI | model.cpp:66 | `std::stoi` gives a value within `int`, and throws `invalid_argument` exactly when no digits follow the optional sign |
| ObjText.StoIShowInt | model.cpp:66 | `std::stoi` reads every `int` back from its decimal form |
| ObjText.SegmentsTrailingSlash | model.cpp:64 | one `/` at the end of a token that does not already end in one adds no segment |
| ObjText.ReadDoubleOutcome | model.cpp:38-39 | an extraction leaves the variable unassigned exactly when the stream had already failed or holds only whitespace, and the stream is then failed; a failed stream is left as it is |
| ObjText.ReadDoubleShowInt | model.cpp:38-39 | extracting a `double` from an integer numeral stores that integer and stops right after it, in the middle of a word when a character that cannot continue the numeral follows |
| ObjText.ReadBlanked | model.cpp:38-39 | from blank-separated integers an extraction stores the first and leaves the others to be read; from an empty rest it stores nothing and fails the stream |
| ObjModel.Slot | model.cpp:72-78 | a stored index is never negative; it is positive exactly when the segment exists and reads above 1, and a positive read value is stored one lower |
| ObjModel.ParseCorner | model.cpp:61-79 | the three stored indices of a corner are non-negative, and parsing fails exactly when `std::stoi` fails on some non-empty segment |
| ObjModel.ParseFormatCorner | model.cpp:64-79 | a corner written as the 1-based token `v/t/n` parses back to the same 0-based corner |
| ObjModel.CornerWithoutTexture | model.cpp:64-79 | a token `a//d` with positive numerals gives vertex `a - 1`, texture 0 and normal `d - 1`, e.g. `1//3` gives `(0, 0, 2)` |
| ObjModel.CornerVertexOnly | model.cpp:64-79 | a token without `/` gives its value made 0-based (0 when not positive) as the vertex, and 0 for texture and normal |
| ObjModel.CornerOfNumeral | model.cpp:64-79 | a positive numeral `k` alone, as in `f 1 2 3`, gives vertex `k - 1` and texture and normal 0 |
| ObjModel.CornerWithoutNormal | model.cpp:64-79 | a token `a/b` gives vertex and texture made 0-based and normal 0; an empty `a` reads as 0 |
| ObjModel.CornerTrailingSlash | model.cpp:64-79 | a token `t/` parses as `t` does |
| ObjModel.PointOfNumerals | model.cpp:37-47 | a `v` or `vn` line with three blank-separated integers stores exactly those numbers, with `w` = 1 |
| ObjModel.PointOfAdjacentNumerals | model.cpp:37-41 | in `v 1-2 3` the word `1-2` supplies both x and y, because the sign ends the first numeral |
| ObjModel.OneMinus | model.cpp:49-53 | `1. - v` is unassigned exactly when `v` is, and otherwise adds up with `v` to 1 |
| ObjModel.MissingCoordinate | model.cpp:49-53 | a `vt` line with a single number stores it as u and leaves v unassigned |
| ObjModel.ParseCorners | model.cpp:58-79 | a list of tokens parses exactly when every token parses, and then corner `i` is the parse of token `i` |
| ObjModel.FaceCorners | model.cpp:58-59 | an `f` line succeeds exactly when each of its first three tokens parses; it then yields as many corners as it has tokens, at most three, and corner `i` is the parse of token `i` |
| ObjModel.FaceIgnoresExtraTokens | model.cpp:58-59 | tokens after the third are never read, so a fourth token, even one `std::stoi` rejects, changes nothing |
| ObjModel.LineCorners | model.cpp:55-81 | a line contributes at most three corners, all with non-negative indices |
| ObjModel.AddCorners | model.cpp:72-79 | each corner appends exactly one entry to each of the three face arrays, so equal lengths and non-negative entries are kept |
| ObjModel.ParseLine | model.cpp:37-81 | one line keeps the face arrays parallel and non-negative, only an `f` line can throw, and it adds at most three corners |
| ObjModel.ParseLineRecords | model.cpp:37-53 | a `v`/`vn` line appends its point `(x, y, z, 1)`, a `vt` line appends `(u, 1 - v)`, an `f` line appends its corners, and any other line changes nothing |
| ObjModel.LoadLines | model.cpp:31-82 | the line loop keeps the face arrays parallel and non-negative |
| ObjModel.LoadLinesRecords | model.cpp:31-82 | the line loop appends exactly the records of the file's lines, in file order, and throws exactly when an `f` line throws |
| ObjModel.Load | model.cpp:17-98 | an unopenable file gives `false` with all six arrays empty; a loaded model is well formed; only an opened file can throw |
| ObjModel.LoadFromScratch | model.cpp:18-23 | after a successful load the six arrays hold exactly what the file describes, and nothing from an earlier load survives |
| ObjModel.NFaces | model.cpp:101 | `nfaces()` is the number of whole corner triples: `3 * n <= faces_vrt.size() < 3 * n + 3` |
| ObjModel.NVertsCountsVertexLines | model.cpp:100 | after a load, `nverts()` equals the number of `v` lines |
| ObjModel.FaceSlotInRange | model.cpp:107-122 | for a counted face and a corner 0..2, the position `iface * 3 + nthvert` is in range in all three face arrays |
| ObjModel.Vert | model.cpp:107-109 | `vert(iface, nthvert)` returns one of the stored positions, given that both lookups are in range |
| ObjModel.Normal | model.cpp:111-113 | `normal(iface, nthvert)` returns one of the stored normals, given that both lookups are in range |
| ObjModel.Uv | model.cpp:120-122 | `uv(iface, nthvert)` returns one of the stored texture coordinates, given that both lookups are in range |
| ObjModel.AccessorsOfLoaded | model.cpp:107-122 | after a load, corner `nthvert` of face `iface` returns the record that the file's `3 * iface + nthvert`-th corner points at |
| Transform.PerspectiveAction | our_gl.cpp:21-26 | the perspective matrix keeps x, y and z and maps w to `w - z / f`; its inverse maps w to `w + z / f` |
| Transform.PerspectiveRoundTrip | our_gl.cpp:21-26 | the perspective matrix and its inverse undo each other on every point |
| Transform.ViewportCorners | our_gl.cpp:28-33 | the viewport sends the corner `(-1, -1)` to `(x, y)` and `(1, 1)` to `(x + w, y + h)` and keeps z |
| Transform.ViewportMapsSquare | our_gl.cpp:28-33 | every point of the square `[-1, 1]²` lands in the rectangle `[x, x + w] x [y, y + h]` with its z unchanged |
| Transform.ViewportRoundTrip | our_gl.cpp:28-33 | for a non-empty rectangle, the viewport matrix and its inverse undo each other on every point |
| Transform.ScreenToCameraRoundTrip | main.cpp:141 | the folded inverse undoes the folded `Viewport * Perspective` map, so screen position and depth determine the point |
| Raster.InitZbuffer | our_gl.cpp:35-37 | `init_zbuffer(w, h)` makes exactly `w * h` cells, each holding -1000 |
| Raster.Ndc | our_gl.cpp:40 | the perspective divide leaves every vertex with `w = 1` |
| Raster.BaryReconstructs | our_gl.cpp:60 | the screen weights sum to one and recombine the three vertices into the pixel |
| Raster.ClipWeights | our_gl.cpp:61-62 | when the divided weights do not sum to zero, the corrected weights sum to one and are proportional to the screen weights divided by each vertex's clip `w` |
| Raster.ClipWeightsBarycentric | our_gl.cpp:61-62 | with every clip `w` positive, the perspective-corrected weights of an inside pixel are non-negative and sum to one |
| Raster.PixelBox | our_gl.cpp:48-59 | the loops visit a pixel exactly when it is in the framebuffer and between the truncated least and greatest vertex coordinates, in x and in y |
| Raster.BoxInGrid | our_gl.cpp:58-59 | every pixel the clamped loops visit is in the framebuffer, so its index is in range |
| Raster.InsideWithinHull | our_gl.cpp:48-63 | a point whose weights pass the inside test lies between the least and greatest vertex coordinates |
| Raster.BoxCoversInside | our_gl.cpp:48-59 | the truncated, clamped bounding box misses no framebuffer pixel inside the triangle |
| Raster.PixelOutcome | our_gl.cpp:60-69 | the loop body writes exactly when the pixel is inside, its interpolated depth is strictly greater than the stored one and the fragment is kept; it then writes that depth and the fragment's colour |
| Raster.After | our_gl.cpp:46-69 | a pixel either keeps its depth and colour, or the triangle is not thin, the pixel is in the framebuffer and its depth strictly grows |
| Raster.ThinTriangleKeeps | our_gl.cpp:46 | a triangle with determinant below 1 changes no depth and no colour |
| Raster.AfterWriteRule | our_gl.cpp:63-69 | a pixel changes only when it is inside, its depth is strictly greater than the stored one and the fragment is kept; depth and colour then change together to the interpolated depth and the fragment's colour; depths never decrease |
| Raster.DiscardKeeps | our_gl.cpp:66-67 | a discarded fragment changes neither the depth nor the colour |
| Raster.AfterIgnoresBox | our_gl.cpp:48-63 | for a framebuffer pixel the outcome depends only on the inside, depth and discard tests, not on the bounding box |
| Raster.AfterIdempotent | our_gl.cpp:63-69 | drawing the same triangle again changes nothing more |
| Raster.ShadePixel | our_gl.cpp:60-69 | one pass of the loop body either leaves both buffers alone or writes a strictly greater depth and the colour at that pixel's cell only |
| Raster.Rasterize | our_gl.cpp:39-72 | every pixel ends as the write rule says, and no cell outside a written pixel changes; depths never decrease; an unchanged depth means an unchanged colour; a thin triangle changes nothing |
| Raster.GrownTransitive | main.cpp:128-133 | "depths only grow, unchanged depth keeps its colour" carries over from one triangle to the next |
| Raster.DrawFaces | main.cpp:125-134 | after drawing all faces, depths have only grown and a pixel whose depth is unchanged kept its colour |
| Shadow.ShadowIndex | main.cpp:174 | for a point on the shadow map, `int(p.x) + int(p.y) * shadoww` lies in `[0, shadoww * shadowh)` |
| Shadow.LitWithoutLookup | main.cpp:172-173 | a reconstructed point whose z is below -100, or a point off the shadow map, is lit without reading the shadow map |
| Shadow.BiasAvoidsSelfShadow | main.cpp:174 | a point at most the bias behind the shadow map's depth is lit, so a surface does not shadow itself |
| Shadow.LitMonotone | main.cpp:174 | moving a point nearer the light within the same cell cannot put it in shadow |
| Shadow.ComputeMask | main.cpp:167-177 | `mask[x + y * width]` is the `lit` flag of the pixel's reprojected point |
| Shadow.MaskPixelWhiteIffOccluded | main.cpp:179-185 | over a non-white canvas, a mask pixel is white exactly when it is occluded |
| Shadow.MaskImage | main.cpp:179-185 | the mask image is white at occluded pixels and keeps the canvas at lit ones |
| Shadow.DarkenTouchesOnlyOccluded | main.cpp:188-197 | darkening changes only occluded pixels whose colour norm is at least 80, and those end opaque and white in the mask |
| Shadow.DarkenPixel | main.cpp:190-195 | a lit pixel, or one whose colour norm is below 80, keeps its colour; any other pixel gets the capped colour, opaque |
| Shadow.Darken | main.cpp:188-197 | every pixel of the darkened image is its framebuffer pixel after the per-pixel darkening rule |
| Shadow.NormalizeRange | main.cpp:87 | the normalisation maps `minz` to 0 and `maxz` to 255, is increasing, and keeps depths in `[minz, maxz]` within `[0, 255]` |
| Shadow.GreyOf | main.cpp:87-88 | a defined grey is the normalised depth truncated toward zero: at most one below it when it is non-negative, and 0 when it lies in `(-1, 0)`; every normalised depth in `(-1, 256)` gets a defined grey, and with `minz == maxz` none does |
| Shadow.GreyOfRange | main.cpp:87-88 | when `minz < maxz`, each depth in the scanned range gets a defined grey, `minz` black and `maxz` white |
| Shadow.DepthRange | main.cpp:73-82 | every cell not below -100 lies within `[minz, maxz]`, and each bound is its starting value or the depth of some set cell |
| Shadow.DropZbuffer | main.cpp:71-92 | cells below -100 keep the initial black, the other cells get their normalised grey, and with `minz < maxz` every pixel has a defined grey |

## Left out

- File and image I/O: opening the file is the `Source` parameter of `Load`, and images are sequences of colours. TGA reading and writing is not modelled.
- `load_texture` and the texture maps (model.cpp:85-94), and `normal(uv)` (model.cpp:115-118): they need texture decoding and floating-point normalisation.
- `vert(i)` (model.cpp:103-105): it is a plain array read.
- The log lines that `load` prints are output only.
- `lookat` and `normalized`: they need square roots. Wherever the matrices matter, the view matrix is an input.
- The shaders (main.cpp:15-69): `fragment` is a function parameter returning a discard flag and a colour.
- The vertex stage is the clip triangle handed to `Raster.Rasterize`.
- The shadow pass's reprojection (the products with `M` and `N` and the divide by `w`) is a function parameter of `Shadow.ComputeMask`. `Transform.ScreenToCameraRoundTrip` states the inversion of `Viewport * Perspective`; the `ModelView` factor of `M` comes from `lookat`, which is left out.
- The light pass and the `argc`/model loops of `main`: they are driver code. `Raster.DrawFaces` is the face loop over any sequence of clip triangles and any shader.
- Shadow.Darken: the rescaling `normalized(a) * 80` with its `uint8_t` casts is a parameter `cap`. The norm test compares the sum of squares with 6400, without a square root.
- Raster.Rasterize: the loops run sequentially; `#pragma omp parallel for` only splits columns that write disjoint cells.
- Raster.Rasterize: `det()` and `invert_transpose()` come from a linear-algebra header that is not part of this model. Barycentrics are computed exactly by Cramer's rule, so no `double` rounding is modelled.
- Raster.ClipWeights: when the divided weights sum to zero, the source divides by zero. The model passes the undivided weights on.
- Raster.Rasterize requires every clip `w` to be non-zero, since the source's perspective divide is otherwise not a number.
- Geometry.Trunc: `static_cast<int>` of a value outside `int` is undefined in C++; the model truncates without bounds.
- Shadow.GreyOf: with `maxz == minz` the source computes `0 / 0`. The `uint8_t` cast truncates toward zero first, so a normalised value in `(-1, 0)` becomes 0, and only a value outside `(-1, 256)` makes it undefined. Only these two cases give `Unspecified`.
- Shadow.DropZbuffer: the output is the grey level only. The source writes it to a single-channel image, so its other three channel values are dropped.
- ObjText.ScanNumeral: the value is the exact decimal the characters denote. Rounding to `double`, out-of-range values, `inf`, `nan` and hexadecimal floats are not modelled, and the rules followed are GNU libstdc++'s `num_get`; other standard libraries may differ on input such as `1e`.
- ObjModel.Load: a `std::stoi` exception escapes `load` as `Threw`. The arrays it had partly filled are not reported.
- ObjModel.Vert, ObjModel.Normal, ObjModel.Uv: they require their indices in range, as the source needs. Face indices in the file are not checked against the record counts.
- The `int` width of the face indices: `std::stoi` already limits them to `int`, and `k - 1` cannot overflow for a positive `k`.
- model.h and our_gl.h: they are declarations only. model.h is out of date with model.cpp, which this model follows.

=== FILE: geometry.dfy ===
/**
  Value types shared by the renderer model: small real vectors, 4x4 matrices
  acting on homogeneous points, and 8-bit colours.

  Components are exact reals standing in for `double`; no rounding is modelled.
 */
module Geometry {

  datatype Vec2 = Vec2(x: real, y: real)
  datatype Vec3 = Vec3(x: real, y: real, z: real)
  datatype Vec4 = Vec4(x: real, y: real, z: real, w: real)

  /** A 4x4 matrix, stored as its four rows. */
  datatype Mat4 = Mat4(r0: Vec4, r1: Vec4, r2: Vec4, r3: Vec4)

  /** One 8-bit colour channel. */
  type Byte = x: int | 0 <= x < 256

  /** A TGA colour: channels in blue, green, red, alpha order. */
  datatype Color = Color(b: Byte, g: Byte, r: Byte, a: Byte)

  const White: Color := Color(255, 255, 255, 255)

  function Dot4(a: Vec4, b: Vec4): real {
    a.x * b.x + a.y * b.y + a.z * b.z + a.w * b.w
  }

  function Add4(a: Vec4, b: Vec4): Vec4 {
    Vec4(a.x + b.x, a.y + b.y, a.z + b.z, a.w + b.w)
  }

  function Scale4(k: real, a: Vec4): Vec4 {
    Vec4(k * a.x, k * a.y, k * a.z, k * a.w)
  }

  /** The matrix applied to a column vector. */
  function MulVec(m: Mat4, v: Vec4): Vec4 {
    Vec4(Dot4(m.r0, v), Dot4(m.r1, v), Dot4(m.r2, v), Dot4(m.r3, v))
  }

  /** A row vector times a matrix: the row's entries weight the matrix rows. */
  function RowTimes(row: Vec4, m: Mat4): Vec4 {
    Add4(Add4(Scale4(row.x, m.r0), Scale4(row.y, m.r1)),
         Add4(Scale4(row.z, m.r2), Scale4(row.w, m.r3)))
  }

  /** The matrix product `a * b`. */
  function MatMul(a: Mat4, b: Mat4): Mat4 {
    Mat4(RowTimes(a.r0, b), RowTimes(a.r1, b), RowTimes(a.r2, b), RowTimes(a.r3, b))
  }

  lemma RowAction(row: Vec4, m: Mat4, v: Vec4)
    ensures Dot4(RowTimes(row, m), v) == Dot4(row, MulVec(m, v))
  {
    var a, b := Scale4(row.x, m.r0), Scale4(row.y, m.r1);
    var c, d := Scale4(row.z, m.r2), Scale4(row.w, m.r3);
    DotAdd(Add4(a, b), Add4(c, d), v);
    DotAdd(a, b, v);
    DotAdd(c, d, v);
    DotScale(row.x, m.r0, v);
    DotScale(row.y, m.r1, v);
    DotScale(row.z, m.r2, v);
    DotScale(row.w, m.r3, v);
  }

  lemma DotAdd(a: Vec4, b: Vec4, v: Vec4)
    ensures Dot4(Add4(a, b), v) == Dot4(a, v) + Dot4(b, v)
  {
  }

  lemma DotScale(k: real, a: Vec4, v: Vec4)
    ensures Dot4(Scale4(k, a), v) == k * Dot4(a, v)
  {
  }

  /**
    A product of matrices acts as the composition of its factors, which is why
    the renderer can fold `Viewport * Perspective * ModelView` into one matrix.
   */
  lemma MatMulAction(a: Mat4, b: Mat4, v: Vec4)
    ensures MulVec(MatMul(a, b), v) == MulVec(a, MulVec(b, v))
  {
    RowAction(a.r0, b, v);
    RowAction(a.r1, b, v);
    RowAction(a.r2, b, v);
    RowAction(a.r3, b, v);
  }

  function Min3(a: real, b: real, c: real): (m: real)
    ensures m <= a && m <= b && m <= c
    ensures m == a || m == b || m == c
  {
    if a <= b && a <= c then a else if b <= c then b else c
  }

  function Max3(a: real, b: real, c: real): (m: real)
    ensures m >= a && m >= b && m >= c
    ensures m == a || m == b || m == c
  {
    if a >= b && a >= c then a else if b >= c then b else c
  }

  /** Conversion of a real to `int` as C++ `static_cast<int>` does it: toward zero. */
  function Trunc(r: real): (n: int)
    ensures 0.0 <= r ==> n as real <= r < n as real + 1.0
    ensures r < 0.0 ==> n as real - 1.0 < r <= n as real
  {
    if r >= 0.0 then r.Floor else -((-r).Floor)
  }
}

=== FILE: grid.dfy ===
/**
  Images and depth buffers are flat sequences indexed `x + y * width`,
  as in the renderer's `zbuffer[x + y * width]`.
 */
module Grid {

  function Idx(x: int, y: int, width: int): int {
    x + y * width
  }

  predicate InGrid(x: int, y: int, width: int, height: int) {
    0 <= x < width && 0 <= y < height
  }

  /** Every pixel of a width x height grid has its flat index inside the buffer. */
  lemma IdxInBounds(x: int, y: int, width: int, height: int)
    requires InGrid(x, y, width, height)
    ensures 0 <= Idx(x, y, width) < width * height
  {
    assert y * width <= (height - 1) * width by {
      assert (height - 1 - y) * width >= 0;
    }
    assert (height - 1) * width + width == height * width;
  }

  /** Distinct pixels have distinct flat indices, so a write touches one pixel only. */
  lemma IdxInjective(x1: int, y1: int, x2: int, y2: int, width: int, height: int)
    requires InGrid(x1, y1, width, height) && InGrid(x2, y2, width, height)
    requires Idx(x1, y1, width) == Idx(x2, y2, width)
    ensures x1 == x2 && y1 == y2
  {
    assert (y1 - y2) * width == x2 - x1;
    RowStepExceedsColumns(y1 - y2, width);
  }

  /** A non-zero number of whole rows spans at least one full row. */
  lemma RowStepExceedsColumns(d: int, width: int)
    requires width > 0
    requires -width < d * width < width
    ensures d == 0
  {
    if d > 0 {
      MulAtLeast(d, width);
    } else if d < 0 {
      MulAtLeast(-d, width);
    }
  }

  lemma MulAtLeast(d: int, w: int)
    requires d >= 1 && w >= 0
    ensures d * w >= w
  {
    var p := (d - 1) * w;
    assert p >= 0;
    assert d * w == p + w;
  }

  /** Every buffer index belongs to a pixel, so a statement about all pixels covers the whole buffer. */
  lemma EveryIndexIsAPixel(i: int, width: int, height: int)
    requires 0 <= width && 0 <= height && 0 <= i < width * height
    ensures InGrid(i % width, i / width, width, height) && Idx(i % width, i / width, width) == i
  {
    assert width != 0;
    var x, y := i % width, i / width;
    assert i == y * width + x;
  }

  lemma AllIdxInBounds(width: int, height: int)
    ensures forall x, y :: InGrid(x, y, width, height) ==> 0 <= Idx(x, y, width) < width * height
  {
    forall x, y | InGrid(x, y, width, height)
      ensures 0 <= Idx(x, y, width) < width * height
    {
      IdxInBounds(x, y, width, height);
    }
  }

  /** Writing at one pixel's index leaves every other pixel's index alone. */
  lemma OtherPixels(x: int, y: int, width: int, height: int)
    requires InGrid(x, y, width, height)
    ensures forall px, py :: InGrid(px, py, width, height) && (px != x || py != y) ==>
      Idx(px, py, width) != Idx(x, y, width)
  {
    forall px, py | InGrid(px, py, width, height) && (px != x || py != y)
      ensures Idx(px, py, width) != Idx(x, y, width)
    {
      if Idx(px, py, width) == Idx(x, y, width) {
        IdxInjective(px, py, x, y, width, height);
      }
    }
  }

  /**
    The renderer's `for x ... for y ...` traversal of a `width` x `height`
    image: each pixel of `dst` is replaced by `f` of its coordinates, the
    value at the same pixel of `src`, and its own old value. A loop body that
    `continue`s without writing is an `f` returning the old value.
   */
  method MapPixels<S, T>(width: int, height: int, src: seq<S>, dst: seq<T>, f: (int, int, S, T) -> T)
    returns (out: seq<T>)
    requires 0 <= width && 0 <= height && |src| == width * height && |dst| == width * height
    ensures |out| == |dst|
    ensures forall x, y :: InGrid(x, y, width, height) ==> 0 <= Idx(x, y, width) < |out|
    ensures forall x, y :: InGrid(x, y, width, height) ==>
      out[Idx(x, y, width)] == f(x, y, src[Idx(x, y, width)], dst[Idx(x, y, width)])
  {
    AllIdxInBounds(width, height);
    out := dst;
    var x := 0;
    while x < width
      invariant 0 <= x <= width && |out| == |dst|
      invariant forall px, py :: InGrid(px, py, width, height) ==>
        out[Idx(px, py, width)] ==
        if px < x then f(px, py, src[Idx(px, py, width)], dst[Idx(px, py, width)]) else dst[Idx(px, py, width)]
    {
      var y := 0;
      while y < height
        invariant 0 <= y <= height && |out| == |dst|
        invariant forall px, py :: InGrid(px, py, width, height) ==>
          out[Idx(px, py, width)] ==
          if px < x || (px == x && py < y) then f(px, py, src[Idx(px, py, width)], dst[Idx(px, py, width)])
          else dst[Idx(px, py, width)]
      {
        OtherPixels(x, y, width, height);
        var i := Idx(x, y, width);
        out := out[i := f(x, y, src[i], out[i])];
        y := y + 1;
      }
      x := x + 1;
    }
  }
}

=== FILE: obj_model.dfy ===
/**
  `Model::load` and the face accessors of the renderer's mesh class.

  `load` reads a Wavefront OBJ file line by line. A line's first word selects
  what it adds: `v` a position, `vn` a normal, `vt` a texture coordinate, `f`
  up to three face corners; every other line is ignored. A face corner is a
  token `v/t/n` whose 1-based indices are stored 0-based in three parallel
  arrays.
 */
module ObjModel {
  import opened Geometry
  import opened ObjText

  /** The three 0-based indices a face corner refers to. */
  datatype Corner = Corner(vrt: int, tex: int, nrm: int)

  /**
    A `vec4` that a `v` or `vn` line stores: three coordinates read from the
    line, each possibly indeterminate, and the constant `w`.
   */
  datatype Point = Point(x: Scalar, y: Scalar, z: Scalar, w: real)

  /** A `vec2` that a `vt` line stores. */
  datatype TexCoord = TexCoord(u: Scalar, v: Scalar)

  /** The six storage arrays that `load` fills. */
  datatype Model = Model(
    vertices: seq<Point>,
    normals: seq<Point>,
    tex: seq<TexCoord>,
    facesVrt: seq<int>,
    facesTex: seq<int>,
    facesNrm: seq<int>)

  const Empty: Model := Model([], [], [], [], [], [])

  /** What opening the file gave: nothing, or the lines `std::getline` delivers. */
  datatype Source = CannotOpen | Opened(lines: seq<string>)

  /**
    The outcome of `load`: its boolean result with the arrays it left behind,
    or the `std::stoi` exception that escaped from it.
   */
  datatype LoadResult = Loaded(ok: bool, model: Model) | Threw(error: StoiError)

  /** The invariant `load` keeps: three parallel face arrays of non-negative indices. */
  predicate WellFormed(m: Model) {
    && |m.facesVrt| == |m.facesTex| == |m.facesNrm|
    && (forall i :: 0 <= i < |m.facesVrt| ==> m.facesVrt[i] >= 0)
    && (forall i :: 0 <= i < |m.facesTex| ==> m.facesTex[i] >= 0)
    && (forall i :: 0 <= i < |m.facesNrm| ==> m.facesNrm[i] >= 0)
  }

  // ---------------------------------------------------------------------------
  // Face tokens

  /** One segment as `std::stoi` reads it; an empty segment is 0. */
  function SegmentValue(seg: string): Result<int> {
    if seg == [] then Ok(0) else StoI(seg)
  }

  /** Every segment of a face token as `std::stoi` reads it; an empty segment is 0. */
  function SegmentValues(segs: seq<string>): (r: Result<seq<int>>)
    ensures r.Ok? ==> |r.value| == |segs|
    ensures r.Ok? ==> forall i :: 0 <= i < |segs| ==>
      if segs[i] == [] then r.value[i] == 0 else StoI(segs[i]) == Ok(r.value[i])
    ensures r.Ok? <== forall i :: 0 <= i < |segs| && segs[i] != [] ==> StoI(segs[i]).Ok?
  {
    if segs == [] then Ok([])
    else
      var v :- SegmentValue(segs[0]);
      var vs :- SegmentValues(segs[1..]);
      assert forall i :: 1 <= i < |segs| ==> segs[i] == segs[1..][i - 1];
      Ok([v] + vs)
  }

  /** The k-th value made 0-based, or 0 when it is missing or not positive. */
  function Slot(vals: seq<int>, k: nat): (r: int)
    ensures r >= 0
    ensures r > 0 <==> k < |vals| && vals[k] > 1
    ensures k < |vals| && vals[k] > 0 ==> r + 1 == vals[k]
  {
    if |vals| > k && vals[k] > 0 then vals[k] - 1 else 0
  }

  /** One face token `v/t/n`; any part may be missing or empty. */
  function ParseCorner(token: string): (r: Result<Corner>)
    ensures r.Ok? ==> r.value.vrt >= 0 && r.value.tex >= 0 && r.value.nrm >= 0
    ensures r.Err? <==> SegmentValues(Segments(token)).Err?
  {
    var vals :- SegmentValues(Segments(token));
    Ok(Corner(Slot(vals, 0), Slot(vals, 1), Slot(vals, 2)))
  }

  function ParseCorners(tokens: seq<string>): (r: Result<seq<Corner>>)
    ensures r.Ok? ==> |r.value| == |tokens|
    ensures r.Ok? ==> forall i :: 0 <= i < |tokens| ==> ParseCorner(tokens[i]) == Ok(r.value[i])
    ensures r.Ok? <== forall i :: 0 <= i < |tokens| ==> ParseCorner(tokens[i]).Ok?
  {
    if tokens == [] then Ok([])
    else
      var c :- ParseCorner(tokens[0]);
      var cs :- ParseCorners(tokens[1..]);
      Ok([c] + cs)
  }

  /**
    The corners of an `f` line, given the words after the keyword: the first
    three tokens at most, fewer when the line runs out of tokens.
   */
  function FaceCorners(tokens: seq<string>): (r: Result<seq<Corner>>)
    ensures r.Ok? ==> |r.value| == if |tokens| < 3 then |tokens| else 3
    ensures r.Ok? ==> forall i :: 0 <= i < |r.value| ==> ParseCorner(tokens[i]) == Ok(r.value[i])
    ensures r.Ok? <== forall i :: 0 <= i < |tokens| && i < 3 ==> ParseCorner(tokens[i]).Ok?
  {
    ParseCorners(tokens[..if |tokens| < 3 then |tokens| else 3])
  }

  /**
    Tokens after the third are never read: whatever follows the first three,
    even a token `std::stoi` would reject, the line gives the same corners.
   */
  lemma FaceIgnoresExtraTokens(tokens: seq<string>, extra: seq<string>)
    requires |tokens| == 3
    ensures FaceCorners(tokens + extra) == FaceCorners(tokens)
  {
    assert (tokens + extra)[..3] == tokens[..3];
  }

  /** A corner written in OBJ form, 1-based, with all three indices present. */
  function FormatCorner(c: Corner): string {
    ShowInt(c.vrt + 1) + "/" + ShowInt(c.tex + 1) + "/" + ShowInt(c.nrm + 1)
  }

  lemma PositiveNumeralHasNoSlash(n: int)
    requires n > 0
    ensures '/' !in ShowInt(n) && ShowInt(n) != []
  {
    assert AllDigits(ShowInt(n));
  }

  /** A positive numeral is a non-empty, slash-free string that `std::stoi` reads back. */
  lemma NumeralFacts(n: int)
    requires 0 < n <= IntMax
    ensures '/' !in ShowInt(n) && ShowInt(n) != [] && StoI(ShowInt(n)) == Ok(n)
  {
    PositiveNumeralHasNoSlash(n);
    StoIShowInt(n);
  }

  /** A token of three slash-free parts, the last non-empty, has exactly those segments. */
  lemma SegmentsOfThree(a: string, b: string, d: string)
    requires '/' !in a && '/' !in b && '/' !in d && d != []
    ensures Segments(a + "/" + b + "/" + d) == [a, b, d]
  {
    assert a + "/" + b + "/" + d == a + "/" + (b + "/" + d);
    PiecesAfterWord(a, b + "/" + d);
    PiecesAfterWord(b, d);
    PiecesOfWord(d);
  }

  lemma SegmentValuesOfThree(a: string, b: string, d: string, va: int, vb: int, vd: int)
    requires a == [] ==> va == 0
    requires a != [] ==> StoI(a) == Ok(va)
    requires b == [] ==> vb == 0
    requires b != [] ==> StoI(b) == Ok(vb)
    requires d == [] ==> vd == 0
    requires d != [] ==> StoI(d) == Ok(vd)
    ensures SegmentValues([a, b, d]) == Ok([va, vb, vd])
  {
    var segs := [a, b, d];
    assert segs[0] == a && segs[1] == b && segs[2] == d;
    var r := SegmentValues(segs);
    assert r.Ok?;
    assert r.value[0] == va && r.value[1] == vb && r.value[2] == vd;
    assert r.value == [va, vb, vd];
  }


  lemma ParseCornerOfThree(token: string, a: string, b: string, d: string, va: int, vb: int, vd: int)
    requires token == a + "/" + b + "/" + d
    requires '/' !in a && '/' !in b && '/' !in d && d != []
    requires a == [] ==> va == 0
    requires a != [] ==> StoI(a) == Ok(va)
    requires b == [] ==> vb == 0
    requires b != [] ==> StoI(b) == Ok(vb)
    requires StoI(d) == Ok(vd)
    ensures ParseCorner(token) == Ok(Corner(Slot([va, vb, vd], 0), Slot([va, vb, vd], 1), Slot([va, vb, vd], 2)))
  {
    SegmentsOfThree(a, b, d);
    SegmentValuesOfThree(a, b, d, va, vb, vd);
  }

  /** The three numerals of a formatted corner, each read back by `std::stoi`. */
  lemma FormatCornerNumerals(c: Corner) returns (a: string, b: string, d: string)
    requires 0 <= c.vrt < IntMax && 0 <= c.tex < IntMax && 0 <= c.nrm < IntMax
    ensures FormatCorner(c) == a + "/" + b + "/" + d
    ensures '/' !in a && '/' !in b && '/' !in d && a != [] && b != [] && d != []
    ensures StoI(a) == Ok(c.vrt + 1) && StoI(b) == Ok(c.tex + 1) && StoI(d) == Ok(c.nrm + 1)
  {
    a, b, d := ShowInt(c.vrt + 1), ShowInt(c.tex + 1), ShowInt(c.nrm + 1);
    NumeralFacts(c.vrt + 1);
    NumeralFacts(c.tex + 1);
    NumeralFacts(c.nrm + 1);
  }

  /** Parsing a corner's OBJ form recovers the corner. */
  lemma ParseFormatCorner(c: Corner)
    requires 0 <= c.vrt < IntMax && 0 <= c.tex < IntMax && 0 <= c.nrm < IntMax
    ensures ParseCorner(FormatCorner(c)) == Ok(c)
  {
    var a, b, d := FormatCornerNumerals(c);
    ParseNumerals(FormatCorner(c), a, b, d, c);
  }

  lemma ParseNumerals(token: string, a: string, b: string, d: string, c: Corner)
    requires token == a + "/" + b + "/" + d
    requires '/' !in a && '/' !in b && '/' !in d && a != [] && b != [] && d != []
    requires 0 <= c.vrt && 0 <= c.tex && 0 <= c.nrm
    requires StoI(a) == Ok(c.vrt + 1) && StoI(b) == Ok(c.tex + 1) && StoI(d) == Ok(c.nrm + 1)
    ensures ParseCorner(token) == Ok(c)
  {
    var vs := [c.vrt + 1, c.tex + 1, c.nrm + 1];
    assert Slot(vs, 0) == c.vrt && Slot(vs, 1) == c.tex && Slot(vs, 2) == c.nrm by {
      SlotsOfThree(c.vrt + 1, c.tex + 1, c.nrm + 1);
    }
    assert ParseCorner(token) == Ok(Corner(Slot(vs, 0), Slot(vs, 1), Slot(vs, 2))) by {
      ParseCornerOfThree(token, a, b, d, c.vrt + 1, c.tex + 1, c.nrm + 1);
    }
  }

  lemma DoubleSlash(a: string, d: string)
    ensures a + "//" + d == a + "/" + "" + "/" + d
  {
  }

  lemma SlotsOfThree(a: int, b: int, d: int)
    ensures Slot([a, b, d], 0) == (if a > 0 then a - 1 else 0)
    ensures Slot([a, b, d], 1) == (if b > 0 then b - 1 else 0)
    ensures Slot([a, b, d], 2) == (if d > 0 then d - 1 else 0)
  {
  }

  /**
    A corner with its texture index left empty, such as `1//3`: the texture
    slot is 0 and the other two are made 0-based (`1//3` gives 0, 0, 2).
   */
  lemma CornerWithoutTexture(a: string, d: string, v: int, n: int)
    requires '/' !in a && '/' !in d && a != [] && d != []
    requires StoI(a) == Ok(v) && StoI(d) == Ok(n) && 0 < v && 0 < n
    ensures ParseCorner(a + "//" + d) == Ok(Corner(v - 1, 0, n - 1))
  {
    calc {
      ParseCorner(a + "//" + d);
      { DoubleSlash(a, d);
        ParseCornerOfThree(a + "//" + d, a, "", d, v, 0, n); }
      Ok(Corner(Slot([v, 0, n], 0), Slot([v, 0, n], 1), Slot([v, 0, n], 2)));
      { SlotsOfThree(v, 0, n); }
      Ok(Corner(v - 1, 0, n - 1));
    }
  }

  /**
    A corner of one part, such as `7`: the vertex index made 0-based, the
    texture and normal slots 0.
   */
  lemma CornerVertexOnly(a: string, v: int)
    requires '/' !in a && a != [] && StoI(a) == Ok(v)
    ensures ParseCorner(a) == Ok(Corner(if v > 0 then v - 1 else 0, 0, 0))
  {
    SegmentsOfOne(a);
    assert SegmentValues([a]) == Ok([v]) by {
      assert [a][0] == a && [a][1..] == [];
      assert SegmentValue(a) == Ok(v);
      assert [v] + [] == [v];
    }
    assert Slot([v], 0) == (if v > 0 then v - 1 else 0);
    assert Slot([v], 1) == 0 && Slot([v], 2) == 0;
  }

  lemma SegmentsOfOne(a: string)
    requires '/' !in a && a != []
    ensures Segments(a) == [a]
  {
    PiecesOfWord(a);
  }

  /** `f 1 2 3`: a positive numeral alone names the vertex one below it. */
  lemma CornerOfNumeral(v: int)
    requires 0 < v <= IntMax
    ensures ParseCorner(ShowInt(v)) == Ok(Corner(v - 1, 0, 0))
  {
    NumeralFacts(v);
    CornerVertexOnly(ShowInt(v), v);
  }

  /**
    A corner of two parts, such as `7/5`: vertex and texture indices made
    0-based, the normal slot 0. An empty first part reads as 0.
   */
  lemma CornerWithoutNormal(a: string, b: string, v: int, t: int)
    requires '/' !in a && '/' !in b && b != []
    requires SegmentValue(a) == Ok(v) && StoI(b) == Ok(t)
    ensures ParseCorner(a + "/" + b) ==
      Ok(Corner(if v > 0 then v - 1 else 0, if t > 0 then t - 1 else 0, 0))
  {
    var token := a + "/" + b;
    SegmentsOfTwo(a, b);
    SegmentValuesOfTwo(a, b, v, t);
    assert SegmentValues(Segments(token)) == Ok([v, t]);
    assert Slot([v, t], 0) == (if v > 0 then v - 1 else 0);
    assert Slot([v, t], 1) == (if t > 0 then t - 1 else 0);
    assert Slot([v, t], 2) == 0;
  }

  lemma SegmentsOfTwo(a: string, b: string)
    requires '/' !in a && '/' !in b && b != []
    ensures Segments(a + "/" + b) == [a, b]
  {
    PiecesAfterWord(a, b);
    PiecesOfWord(b);
    assert [a] + [b] == [a, b];
  }

  lemma SegmentValuesOfTwo(a: string, b: string, v: int, t: int)
    requires SegmentValue(a) == Ok(v) && b != [] && StoI(b) == Ok(t)
    ensures SegmentValues([a, b]) == Ok([v, t])
  {
    assert SegmentValues([b]) == Ok([t]) by {
      assert [b][0] == b && [b][1..] == [];
      assert SegmentValue(b) == Ok(t);
      assert [t] + [] == [t];
    }
    assert [a, b][0] == a && [a, b][1..] == [b];
    assert [v] + [t] == [v, t];
  }

  /** A single '/' after a token that does not already end in one is ignored. */
  lemma CornerTrailingSlash(t: string)
    requires t != [] && t[|t| - 1] != '/'
    ensures ParseCorner(t + "/") == ParseCorner(t)
  {
    SegmentsTrailingSlash(t);
  }

  // ---------------------------------------------------------------------------
  // Lines

  /** The first word of a line, or the empty string for a blank line. */
  function LineKind(line: string): string {
    var ws := Words(line);
    if ws == [] then [] else ws[0]
  }

  /**
    What `ss >> line_type` leaves in the line's stream: everything after the
    first word. A line that is only its first word leaves nothing, so every
    later extraction fails.
   */
  function AfterKind(line: string): (rest: string)
    ensures |rest| <= |line|
  {
    var t := SkipSpaces(line);
    t[|WordPrefix(t)|..]
  }

  /**
    The point a `v` or `vn` line stores: three successive `double`
    extractions after the first word, and `w` = 1.
   */
  function PointOf(line: string): Point {
    ReadPoint(AfterKind(line))
  }

  /** Three successive `double` extractions from `rest`, and `w` = 1. */
  function ReadPoint(rest: string): Point {
    var (x, s1) := ReadDouble(Stream(rest, false));
    var (y, s2) := ReadDouble(s1);
    var (z, _) := ReadDouble(s2);
    Point(x, y, z, 1.0)
  }

  /** `1 - v` for a scalar that may be indeterminate. */
  function OneMinus(v: Scalar): (r: Scalar)
    ensures r.Indeterminate? <==> v.Indeterminate?
    ensures r.Known? ==> r.value + v.value == 1.0
  {
    match v
    case Known(a) => Known(1.0 - a)
    case Indeterminate => Indeterminate
  }

  /** The texture coordinate a `vt` line stores: `(u, 1 - v)`, flipping v. */
  function UvOf(line: string): TexCoord {
    ReadTexCoord(AfterKind(line))
  }

  /** Two successive `double` extractions from `rest`, the second flipped. */
  function ReadTexCoord(rest: string): TexCoord {
    var (u, s1) := ReadDouble(Stream(rest, false));
    var (v, _) := ReadDouble(s1);
    TexCoord(u, OneMinus(v))
  }

  /**
    A `v` or `vn` line whose first word is followed by three integer numerals,
    each after a blank, stores exactly those three numbers, with `w` = 1.
   */
  lemma PointOfNumerals(line: string, x: int, y: int, z: int)
    requires AfterKind(line) == Blanked([x, y, z])
    ensures PointOf(line) == Point(Known(x as real), Known(y as real), Known(z as real), 1.0)
  {
    var ns := [x, y, z];
    assert ns[1..] == [y, z] && ns[1..][1..] == [z] && ns[1..][1..][1..] == [];
    ReadBlanked(ns);
    ReadBlanked(ns[1..]);
    ReadBlanked(ns[1..][1..]);
  }

  /**
    Extraction continues inside a word: when a negative numeral directly
    follows the first one, as in `v 1-2 3`, the word `1-2` supplies both x
    and y, because the sign ends the first numeral.
   */
  lemma PointOfAdjacentNumerals(line: string, x: int, y: int, z: int)
    requires y < 0
    requires AfterKind(line) == " " + ShowInt(x) + (ShowInt(y) + Blanked([z]))
    ensures PointOf(line) == Point(Known(x as real), Known(y as real), Known(z as real), 1.0)
  {
    var tz := Blanked([z]);
    var ty := ShowInt(y) + tz;
    assert ReadDouble(Stream(AfterKind(line), false)) == (Known(x as real), Stream(ty, false)) by {
      assert ty[0] == '-' by { assert ShowInt(y)[0] == '-'; }
      ReadDoubleBlankShowInt(x, ty);
    }
    assert ReadDouble(Stream(ty, false)) == (Known(y as real), Stream(tz, false)) by {
      ReadDoubleShowInt(y, tz);
    }
    assert ReadDouble(Stream(tz, false)).0 == Known(z as real) by {
      ReadBlanked([z]);
    }
    ThreeReads(AfterKind(line), x, ty, y, tz, z);
  }

  /** Three extractions whose outcomes are known determine the point read. */
  lemma ThreeReads(a: string, x: int, ty: string, y: int, tz: string, z: int)
    requires ReadDouble(Stream(a, false)) == (Known(x as real), Stream(ty, false))
    requires ReadDouble(Stream(ty, false)) == (Known(y as real), Stream(tz, false))
    requires ReadDouble(Stream(tz, false)).0 == Known(z as real)
    ensures ReadPoint(a) == Point(Known(x as real), Known(y as real), Known(z as real), 1.0)
  {
  }

  /**
    A `vt` line with a single number stores that number as u and leaves v
    unassigned: the second extraction finds the stream exhausted.
   */
  lemma MissingCoordinate(line: string, u: int)
    requires AfterKind(line) == Blanked([u])
    ensures UvOf(line) == TexCoord(Known(u as real), Indeterminate)
  {
    assert [u][1..] == [];
    ReadBlanked([u]);
    assert Blanked([]) == [];
  }

  function Vrts(cs: seq<Corner>): (r: seq<int>)
    ensures |r| == |cs| && forall i :: 0 <= i < |cs| ==> r[i] == cs[i].vrt
  {
    seq(|cs|, i requires 0 <= i < |cs| => cs[i].vrt)
  }

  function Texs(cs: seq<Corner>): (r: seq<int>)
    ensures |r| == |cs| && forall i :: 0 <= i < |cs| ==> r[i] == cs[i].tex
  {
    seq(|cs|, i requires 0 <= i < |cs| => cs[i].tex)
  }

  function Nrms(cs: seq<Corner>): (r: seq<int>)
    ensures |r| == |cs| && forall i :: 0 <= i < |cs| ==> r[i] == cs[i].nrm
  {
    seq(|cs|, i requires 0 <= i < |cs| => cs[i].nrm)
  }

  /** Every index a corner holds is non-negative. */
  predicate NonNegative(cs: seq<Corner>) {
    forall i :: 0 <= i < |cs| ==> cs[i].vrt >= 0 && cs[i].tex >= 0 && cs[i].nrm >= 0
  }

  /** Appends one entry per corner to each of the three face arrays. */
  function AddCorners(m: Model, cs: seq<Corner>): (r: Model)
    ensures |r.facesVrt| == |m.facesVrt| + |cs|
    ensures WellFormed(m) && NonNegative(cs) ==> WellFormed(r)
  {
    m.(facesVrt := m.facesVrt + Vrts(cs),
       facesTex := m.facesTex + Texs(cs),
       facesNrm := m.facesNrm + Nrms(cs))
  }

  /** The effect of one line of the file on the model. */
  function ParseLine(m: Model, line: string): (r: Result<Model>)
    ensures WellFormed(m) && r.Ok? ==> WellFormed(r.value)
    ensures LineKind(line) != "f" ==> r.Ok?
    ensures r.Ok? ==> |m.facesVrt| <= |r.value.facesVrt| <= |m.facesVrt| + 3
  {
    var kind := LineKind(line);
    if kind == "v" then
      Ok(m.(vertices := m.vertices + [PointOf(line)]))
    else if kind == "vn" then
      Ok(m.(normals := m.normals + [PointOf(line)]))
    else if kind == "vt" then
      Ok(m.(tex := m.tex + [UvOf(line)]))
    else if kind == "f" then
      var cs :- LineCorners(line);
      Ok(AddCorners(m, cs))
    else
      Ok(m)
  }

  /** The corners a line adds: those of an `f` line, none for any other line. */
  function LineCorners(line: string): (r: Result<seq<Corner>>)
    ensures r.Ok? ==> |r.value| <= 3 && NonNegative(r.value)
  {
    if LineKind(line) == "f" then FaceCorners(Words(line)[1..]) else Ok([])
  }

  /** The main loop of `load`: the lines in order; a `std::stoi` exception ends it. */
  function LoadLines(m: Model, lines: seq<string>): (r: Result<Model>)
    ensures WellFormed(m) && r.Ok? ==> WellFormed(r.value)
    decreases |lines|
  {
    if lines == [] then Ok(m)
    else
      var m1 :- ParseLine(m, lines[0]);
      LoadLines(m1, lines[1..])
  }

  /**
    `Model::load`: the six arrays are cleared first; a file that cannot be
    opened gives `false` and leaves them empty; otherwise every line is parsed
    and the result is `true`.
   */
  function Load(source: Source): (r: LoadResult)
    ensures source.CannotOpen? ==> r == Loaded(false, Empty)
    ensures r.Loaded? ==> WellFormed(r.model)
    ensures r.Loaded? && !r.ok ==> r.model == Empty
    ensures r.Threw? ==> source.Opened?
  {
    match source
    case CannotOpen => Loaded(false, Empty)
    case Opened(lines) =>
      match LoadLines(Empty, lines)
      case Ok(m) => Loaded(true, m)
      case Err(e) => Threw(e)
  }

  // ---------------------------------------------------------------------------
  // What a file contributes, line kind by line kind

  /** The points of the lines whose first word is `key`, in file order. */
  function PointRecords(lines: seq<string>, key: string): seq<Point> {
    if lines == [] then []
    else (if LineKind(lines[0]) == key then [PointOf(lines[0])] else []) + PointRecords(lines[1..], key)
  }

  /** The texture coordinates of the `vt` lines, in file order. */
  function UvRecords(lines: seq<string>): seq<TexCoord> {
    if lines == [] then []
    else (if LineKind(lines[0]) == "vt" then [UvOf(lines[0])] else []) + UvRecords(lines[1..])
  }

  /** The corners of the `f` lines, in file order, or the first exception. */
  function CornerRecords(lines: seq<string>): Result<seq<Corner>> {
    if lines == [] then Ok([])
    else
      var here :- LineCorners(lines[0]);
      var rest :- CornerRecords(lines[1..]);
      Ok(here + rest)
  }

  /** How many lines have `key` as their first word. */
  function CountKind(lines: seq<string>, key: string): nat {
    if lines == [] then 0
    else (if LineKind(lines[0]) == key then 1 else 0) + CountKind(lines[1..], key)
  }

  /** The model `lines` produce when loaded on top of `m` without an exception. */
  function Extended(m: Model, lines: seq<string>, cs: seq<Corner>): Model {
    Model(m.vertices + PointRecords(lines, "v"),
          m.normals + PointRecords(lines, "vn"),
          m.tex + UvRecords(lines),
          m.facesVrt + Vrts(cs), m.facesTex + Texs(cs), m.facesNrm + Nrms(cs))
  }

  lemma CornerColumnsAppend(a: seq<Corner>, b: seq<Corner>)
    ensures Vrts(a + b) == Vrts(a) + Vrts(b)
    ensures Texs(a + b) == Texs(a) + Texs(b)
    ensures Nrms(a + b) == Nrms(a) + Nrms(b)
  {
  }

  /** One line, seen as the records it contributes. */
  lemma ParseLineRecords(m: Model, line: string)
    ensures ParseLine(m, line) ==
      match LineCorners(line)
      case Err(e) => Err(e)
      case Ok(here) => Ok(Extended(m, [line], here))
  {
    var kind := LineKind(line);
    assert [line][1..] == [];
    assert PointRecords([line], "v") == if kind == "v" then [PointOf(line)] else [];
    assert PointRecords([line], "vn") == if kind == "vn" then [PointOf(line)] else [];
    assert UvRecords([line]) == if kind == "vt" then [UvOf(line)] else [];
    if kind != "f" {
      assert LineCorners(line) == Ok([]);
      assert Vrts([]) == [] && Texs([]) == [] && Nrms([]) == [];
      assert m.facesVrt + [] == m.facesVrt && m.facesTex + [] == m.facesTex && m.facesNrm + [] == m.facesNrm;
      assert m.vertices + [] == m.vertices && m.normals + [] == m.normals && m.tex + [] == m.tex;
    }
  }

  lemma ExtendedCompose(m: Model, lines: seq<string>, here: seq<Corner>, cs: seq<Corner>)
    requires lines != []
    ensures Extended(Extended(m, [lines[0]], here), lines[1..], cs) == Extended(m, lines, here + cs)
  {
    PointRecordsSplit(lines, "v");
    PointRecordsSplit(lines, "vn");
    UvRecordsSplit(lines);
    CornerColumnsAppend(here, cs);
    AppendAssoc(m.vertices, PointRecords([lines[0]], "v"), PointRecords(lines[1..], "v"));
    AppendAssoc(m.normals, PointRecords([lines[0]], "vn"), PointRecords(lines[1..], "vn"));
    AppendAssoc(m.tex, UvRecords([lines[0]]), UvRecords(lines[1..]));
    AppendAssoc(m.facesVrt, Vrts(here), Vrts(cs));
    AppendAssoc(m.facesTex, Texs(here), Texs(cs));
    AppendAssoc(m.facesNrm, Nrms(here), Nrms(cs));
  }

  lemma AppendAssoc<T>(a: seq<T>, b: seq<T>, c: seq<T>)
    ensures a + b + c == a + (b + c)
  {
  }

  lemma PointRecordsSplit(lines: seq<string>, key: string)
    requires lines != []
    ensures PointRecords(lines, key) == PointRecords([lines[0]], key) + PointRecords(lines[1..], key)
  {
    assert [lines[0]][1..] == [];
  }

  lemma UvRecordsSplit(lines: seq<string>)
    requires lines != []
    ensures UvRecords(lines) == UvRecords([lines[0]]) + UvRecords(lines[1..])
  {
    assert [lines[0]][1..] == [];
  }

  /**
    The line loop adds exactly the records of the file's lines, in order, to
    whatever the model held, and fails exactly when some `f` line fails.
   */
  lemma {:induction false} LoadLinesRecords(m: Model, lines: seq<string>)
    ensures LoadLines(m, lines) ==
      match CornerRecords(lines)
      case Err(e) => Err(e)
      case Ok(cs) => Ok(Extended(m, lines, cs))
    decreases |lines|
  {
    if lines == [] {
      assert Extended(m, lines, []) == m;
    } else {
      ParseLineRecords(m, lines[0]);
      match LineCorners(lines[0])
      case Err(e) => {}
      case Ok(here) => {
        var m1 := Extended(m, [lines[0]], here);
        LoadLinesRecords(m1, lines[1..]);
        match CornerRecords(lines[1..])
        case Err(e) => {}
        case Ok(cs) => {
          ExtendedCompose(m, lines, here, cs);
        }
      }
    }
  }

  /**
    A successful load holds exactly what the file describes and nothing
    from before: the arrays are cleared before the first line is read.
   */
  lemma LoadFromScratch(lines: seq<string>)
    ensures Load(Opened(lines)) ==
      match CornerRecords(lines)
      case Err(e) => Threw(e)
      case Ok(cs) => Loaded(true, Model(PointRecords(lines, "v"), PointRecords(lines, "vn"),
                                        UvRecords(lines), Vrts(cs), Texs(cs), Nrms(cs)))
  {
    LoadLinesRecords(Empty, lines);
  }

  lemma {:induction false} PointRecordsCount(lines: seq<string>, key: string)
    ensures |PointRecords(lines, key)| == CountKind(lines, key)
  {
    if lines != [] {
      PointRecordsCount(lines[1..], key);
    }
  }

  // ---------------------------------------------------------------------------
  // Accessors

  /** `nverts()`: the number of stored positions. */
  function NVerts(m: Model): int {
    |m.vertices|
  }

  /** `nfaces()`: whole triples of corners; a trailing partial face is not counted. */
  function NFaces(m: Model): (n: int)
    ensures 0 <= n && 3 * n <= |m.facesVrt| < 3 * n + 3
  {
    |m.facesVrt| / 3
  }

  /** After a successful load, `nverts()` is the number of `v` lines. */
  lemma NVertsCountsVertexLines(lines: seq<string>)
    requires Load(Opened(lines)).Loaded?
    ensures NVerts(Load(Opened(lines)).model) == CountKind(lines, "v")
  {
    LoadFromScratch(lines);
    PointRecordsCount(lines, "v");
  }

  /** Every corner of every counted face has a slot in all three face arrays. */
  lemma FaceSlotInRange(m: Model, iface: int, nthvert: int)
    requires WellFormed(m)
    requires 0 <= iface < NFaces(m) && 0 <= nthvert < 3
    ensures 0 <= iface * 3 + nthvert < |m.facesVrt|
    ensures 0 <= iface * 3 + nthvert < |m.facesTex|
    ensures 0 <= iface * 3 + nthvert < |m.facesNrm|
  {
  }

  /** `vert(iface, nthvert)`: the position the corner's vertex index selects. */
  function Vert(m: Model, iface: int, nthvert: int): (p: Point)
    requires 0 <= iface * 3 + nthvert < |m.facesVrt|
    requires 0 <= m.facesVrt[iface * 3 + nthvert] < |m.vertices|
    ensures p in m.vertices
  {
    m.vertices[m.facesVrt[iface * 3 + nthvert]]
  }

  /** `normal(iface, nthvert)`: the normal the corner's normal index selects. */
  function Normal(m: Model, iface: int, nthvert: int): (n: Point)
    requires 0 <= iface * 3 + nthvert < |m.facesNrm|
    requires 0 <= m.facesNrm[iface * 3 + nthvert] < |m.normals|
    ensures n in m.normals
  {
    m.normals[m.facesNrm[iface * 3 + nthvert]]
  }

  /** `uv(iface, nthvert)`: the texture coordinate the corner's texture index selects. */
  function Uv(m: Model, iface: int, nthvert: int): (t: TexCoord)
    requires 0 <= iface * 3 + nthvert < |m.facesTex|
    requires 0 <= m.facesTex[iface * 3 + nthvert] < |m.tex|
    ensures t in m.tex
  {
    m.tex[m.facesTex[iface * 3 + nthvert]]
  }

  /**
    After a successful load, the corner accessors return the records the
    file's `f` lines point at: corner `nthvert` of face `iface` is the
    `3 * iface + nthvert`-th corner listed in the file.
   */
  lemma AccessorsOfLoaded(lines: seq<string>, iface: int, nthvert: int)
    requires CornerRecords(lines).Ok?
    requires 0 <= iface * 3 + nthvert < |CornerRecords(lines).value|
    ensures Load(Opened(lines)).Loaded?
    ensures var m, cs := Load(Opened(lines)).model, CornerRecords(lines).value;
      && m.vertices == PointRecords(lines, "v") && m.normals == PointRecords(lines, "vn")
      && m.tex == UvRecords(lines)
      && m.facesVrt == Vrts(cs) && m.facesTex == Texs(cs) && m.facesNrm == Nrms(cs)
    ensures var m, c := Load(Opened(lines)).model, CornerRecords(lines).value[iface * 3 + nthvert];
      && (c.vrt < |PointRecords(lines, "v")| ==> Vert(m, iface, nthvert) == PointRecords(lines, "v")[c.vrt])
      && (c.nrm < |PointRecords(lines, "vn")| ==> Normal(m, iface, nthvert) == PointRecords(lines, "vn")[c.nrm])
      && (c.tex < |UvRecords(lines)| ==> Uv(m, iface, nthvert) == UvRecords(lines)[c.tex])
  {
    LoadFromScratch(lines);
  }
}

=== FILE: obj_text.dfy ===
/**
  The text primitives the OBJ loader relies on, modelled on the C++ library
  calls it makes:
  - `stream >> word`: skip whitespace, read a maximal run of non-whitespace;
  - `std::getline(token_stream, segment, '/')`: split a face token on '/';
  - `std::stoi`: optional sign and decimal digits, with its two exceptions;
  - `stream >> double`: a decimal numeral (sign, digits, fraction).
 */
module ObjText {

  /** The two exceptions `std::stoi` throws. */
  datatype StoiError = InvalidArgument | OutOfRange

  /** A value, or the `std::stoi` exception that escaped while computing it. */
  datatype Result<+T> = Ok(value: T) | Err(error: StoiError) {
    predicate IsFailure() {
      Err?
    }

    function PropagateFailure<U>(): Result<U>
      requires Err?
    {
      Err(error)
    }

    function Extract(): T
      requires Ok?
    {
      value
    }
  }

  const IntMin: int := -0x8000_0000
  const IntMax: int := 0x7FFF_FFFF

  // ---------------------------------------------------------------------------
  // Whitespace-delimited words

  /** The characters `isspace` accepts in the C locale. */
  predicate IsSpace(c: char) {
    c == ' ' || c == '\t' || c == '\n' || c == '\U{0B}' || c == '\U{0C}' || c == '\r'
  }

  predicate NoSpace(s: string) {
    forall i :: 0 <= i < |s| ==> !IsSpace(s[i])
  }

  /** What is left after the leading whitespace that `operator>>` skips. */
  function SkipSpaces(s: string): (r: string)
    ensures |r| <= |s| && r == s[|s| - |r|..]
    ensures r == [] || !IsSpace(r[0])
    ensures forall i :: 0 <= i < |s| - |r| ==> IsSpace(s[i])
  {
    if s != [] && IsSpace(s[0]) then SkipSpaces(s[1..]) else s
  }

  /** The longest prefix without whitespace. */
  function WordPrefix(s: string): (w: string)
    ensures w <= s && NoSpace(w)
    ensures |w| == |s| || IsSpace(s[|w|])
  {
    if s == [] || IsSpace(s[0]) then [] else [s[0]] + WordPrefix(s[1..])
  }

  /** The words successive `stream >> word` extractions deliver from a line. */
  function Words(s: string): seq<string>
    decreases |s|
  {
    var t := SkipSpaces(s);
    if t == [] then []
    else
      var w := WordPrefix(t);
      assert 0 < |w| <= |t| <= |s| by { assert !IsSpace(t[0]); }
      [w] + Words(t[|w|..])
  }

  /** A non-empty run of non-whitespace characters. */
  predicate IsWord(w: string) {
    w != [] && NoSpace(w)
  }

  /** Every extracted word is non-empty and free of whitespace. */
  lemma {:induction false} WordsAreWords(s: string)
    ensures forall w <- Words(s) :: IsWord(w)
    decreases |s|
  {
    var t := SkipSpaces(s);
    if t != [] {
      var w := WordPrefix(t);
      assert 0 < |w| <= |t| <= |s| by { assert !IsSpace(t[0]); }
      var rest := Words(t[|w|..]);
      WordsAreWords(t[|w|..]);
      assert Words(s) == [w] + rest;
      assert IsWord(w);
    }
  }

  /** Words written out, each followed by one blank. */
  function Unwords(ws: seq<string>): string {
    if ws == [] then [] else ws[0] + " " + Unwords(ws[1..])
  }

  lemma {:induction false} WordPrefixOfWord(w: string, rest: string)
    requires NoSpace(w)
    requires rest == [] || IsSpace(rest[0])
    ensures WordPrefix(w + rest) == w
  {
    if w != [] {
      assert (w + rest)[1..] == w[1..] + rest;
      WordPrefixOfWord(w[1..], rest);
    }
  }

  lemma WordsAfterBlank(rest: string)
    ensures Words(" " + rest) == Words(rest)
  {
    assert (" " + rest)[1..] == rest;
    assert SkipSpaces(" " + rest) == SkipSpaces(rest);
  }

  lemma WordsOfLeadingWord(w: string, rest: string)
    requires w != [] && NoSpace(w)
    ensures Words(w + " " + rest) == [w] + Words(" " + rest)
  {
    var s := w + " " + rest;
    assert s == w + (" " + rest);
    assert s[|w|..] == " " + rest;
    assert SkipSpaces(s) == s by { assert s[0] == w[0]; }
    assert WordPrefix(s) == w by { WordPrefixOfWord(w, " " + rest); }
  }

  /** Reading words back from their written form gives the same words. */
  lemma {:induction false} WordsUnwords(ws: seq<string>)
    requires forall i :: 0 <= i < |ws| ==> ws[i] != [] && NoSpace(ws[i])
    ensures Words(Unwords(ws)) == ws
  {
    if ws != [] {
      var rest := Unwords(ws[1..]);
      WordsOfLeadingWord(ws[0], rest);
      WordsAfterBlank(rest);
      WordsUnwords(ws[1..]);
      assert ws == [ws[0]] + ws[1..];
    }
  }

  // ---------------------------------------------------------------------------
  // Splitting a face token on '/'

  /** The pieces between the '/' characters: one more piece than there are slashes. */
  function Pieces(t: string): (ps: seq<string>)
    ensures |ps| >= 1
    ensures forall i :: 0 <= i < |ps| ==> '/' !in ps[i]
  {
    if t == [] then [[]]
    else
      var rest := Pieces(t[1..]);
      if t[0] == '/' then [[]] + rest
      else [[t[0]] + rest[0]] + rest[1..]
  }

  /** Pieces glued back together with '/' between them. */
  function JoinSlash(ps: seq<string>): string {
    if |ps| == 0 then []
    else if |ps| == 1 then ps[0]
    else ps[0] + "/" + JoinSlash(ps[1..])
  }

  lemma {:induction false} JoinPieces(t: string)
    ensures JoinSlash(Pieces(t)) == t
  {
    if t != [] {
      var rest := Pieces(t[1..]);
      JoinPieces(t[1..]);
      if t[0] == '/' {
        assert ([[]] + rest)[1..] == rest;
      } else if |rest| == 1 {
        assert JoinSlash(rest) == rest[0];
      } else {
        var ps := [[t[0]] + rest[0]] + rest[1..];
        assert ps[1..] == rest[1..];
        assert JoinSlash(rest) == rest[0] + "/" + JoinSlash(rest[1..]);
      }
    }
  }

  /** The last piece is empty exactly when the token is empty or ends in '/'. */
  lemma {:induction false} LastPieceEmpty(t: string)
    ensures Pieces(t)[|Pieces(t)| - 1] == [] <==> (t == [] || t[|t| - 1] == '/')
  {
    if t != [] {
      var rest := Pieces(t[1..]);
      LastPieceEmpty(t[1..]);
      if t[0] == '/' {
      } else if |rest| == 1 {
        JoinPieces(t[1..]);
        assert rest[0] == t[1..];
        assert '/' !in rest[0];
        if t[1..] != [] {
          assert t[|t| - 1] == t[1..][|t[1..]| - 1];
        }
      } else {
        assert t[|t| - 1] == t[1..][|t[1..]| - 1];
      }
    }
  }

  /**
    The segments `while (getline(token_ss, segment, '/'))` yields: the pieces,
    except that an empty final piece is never produced, because `getline`
    fails when it reaches the end without extracting a character.
   */
  function Segments(token: string): (segs: seq<string>)
    ensures forall i :: 0 <= i < |segs| ==> '/' !in segs[i]
  {
    var ps := Pieces(token);
    if ps[|ps| - 1] == [] then ps[..|ps| - 1] else ps
  }

  lemma {:induction false} JoinDropsEmptyLast(ps: seq<string>)
    requires |ps| >= 2 && ps[|ps| - 1] == []
    ensures JoinSlash(ps) == JoinSlash(ps[..|ps| - 1]) + "/"
  {
    if |ps| == 2 {
      assert ps[..1] == [ps[0]];
    } else {
      JoinDropsEmptyLast(ps[1..]);
      assert ps[1..][..|ps[1..]| - 1] == ps[..|ps| - 1][1..];
    }
  }

  /** Re-joining the segments with '/' gives back the token, less one trailing '/'. */
  lemma SegmentsRejoin(token: string)
    ensures JoinSlash(Segments(token)) + (if token != [] && token[|token| - 1] == '/' then "/" else "") == token
  {
    var ps := Pieces(token);
    JoinPieces(token);
    LastPieceEmpty(token);
    if ps[|ps| - 1] == [] && token != [] {
      JoinDropsEmptyLast(ps);
    }
  }

  lemma {:induction false} PiecesAfterWord(a: string, rest: string)
    requires '/' !in a
    ensures Pieces(a + "/" + rest) == [a] + Pieces(rest)
  {
    if a == [] {
      assert ([] + "/" + rest)[1..] == rest;
    } else {
      assert (a + "/" + rest)[1..] == a[1..] + "/" + rest;
      PiecesAfterWord(a[1..], rest);
      assert [a[0]] + a[1..] == a;
    }
  }

  lemma {:induction false} PiecesOfWord(a: string)
    requires '/' !in a
    ensures Pieces(a) == [a]
  {
    if a != [] {
      PiecesOfWord(a[1..]);
      assert [a[0]] + a[1..] == a;
    }
  }

  /** A '/' at the end of a token adds one empty piece. */
  lemma {:induction false} PiecesAppendSlash(t: string)
    ensures Pieces(t + "/") == Pieces(t) + [[]]
  {
    if t == [] {
      assert ([] + "/")[1..] == [];
    } else {
      var u := t + "/";
      var rest := Pieces(t[1..]);
      assert u[0] == t[0] && u[1..] == t[1..] + "/";
      PiecesAppendSlash(t[1..]);
      assert Pieces(u[1..]) == rest + [[]];
      if t[0] == '/' {
        assert Pieces(u) == [[]] + (rest + [[]]);
        assert Pieces(t) == [[]] + rest;
      } else {
        assert (rest + [[]])[0] == rest[0];
        assert (rest + [[]])[1..] == rest[1..] + [[]];
        assert Pieces(u) == [[t[0]] + rest[0]] + (rest[1..] + [[]]);
        assert Pieces(t) == [[t[0]] + rest[0]] + rest[1..];
      }
    }
  }

  /**
    One trailing '/' changes nothing: `getline` never produces the empty
    segment after it.
   */
  lemma SegmentsTrailingSlash(t: string)
    requires t != [] && t[|t| - 1] != '/'
    ensures Segments(t + "/") == Segments(t)
  {
    var ps := Pieces(t);
    PiecesAppendSlash(t);
    LastPieceEmpty(t);
    assert (ps + [[]])[..|ps|] == ps;
  }

  // ---------------------------------------------------------------------------
  // Decimal numerals

  predicate IsDigit(c: char) {
    '0' <= c <= '9'
  }

  predicate AllDigits(s: string) {
    forall i :: 0 <= i < |s| ==> IsDigit(s[i])
  }

  function DigitValue(c: char): nat
    requires IsDigit(c)
  {
    (c as int - '0' as int) as nat
  }

  /** The longest prefix made of decimal digits. */
  function DigitPrefix(s: string): (d: string)
    ensures d <= s && AllDigits(d)
    ensures |d| == |s| || !IsDigit(s[|d|])
  {
    if s == [] || !IsDigit(s[0]) then [] else [s[0]] + DigitPrefix(s[1..])
  }

  /** The value of a string of decimal digits, most significant first. */
  function DigitsValue(ds: string): nat
    requires AllDigits(ds)
  {
    if ds == [] then 0 else DigitsValue(ds[..|ds| - 1]) * 10 + DigitValue(ds[|ds| - 1])
  }

  /** A sign character is consumed; the flag says whether it was '-'. */
  function StripSign(s: string): (r: (bool, string))
    ensures r.0 ==> s != [] && s[0] == '-'
  {
    if s != [] && (s[0] == '-' || s[0] == '+') then (s[0] == '-', s[1..]) else (false, s)
  }

  /**
    `std::stoi(s)`: leading whitespace, an optional sign, then the longest run of
    digits; any text after the digits is ignored. No digits throws
    `invalid_argument`; a value outside `int` throws `out_of_range`.
   */
  function StoI(s: string): (r: Result<int>)
    ensures r.Ok? ==> IntMin <= r.value <= IntMax
    ensures r == Err(InvalidArgument) <==> DigitPrefix(StripSign(SkipSpaces(s)).1) == []
  {
    var (neg, body) := StripSign(SkipSpaces(s));
    var ds := DigitPrefix(body);
    if ds == [] then Err(InvalidArgument)
    else
      var n: int := DigitsValue(ds);
      var v := if neg then -n else n;
      if v < IntMin || IntMax < v then Err(OutOfRange) else Ok(v)
  }

  function DigitChar(d: nat): (c: char)
    requires d < 10
    ensures IsDigit(c) && DigitValue(c) == d
  {
    ('0' as int + d) as char
  }

  /** The decimal rendering of a natural number, without leading zeros. */
  function ShowNat(n: nat): (s: string)
    ensures s != [] && AllDigits(s)
  {
    if n < 10 then [DigitChar(n)] else ShowNat(n / 10) + [DigitChar(n % 10)]
  }

  function ShowInt(n: int): string {
    if n < 0 then "-" + ShowNat(-n) else ShowNat(n)
  }

  lemma {:induction false} ShowNatValue(n: nat)
    ensures DigitsValue(ShowNat(n)) == n
  {
    if n >= 10 {
      var s := ShowNat(n);
      ShowNatValue(n / 10);
      assert s[..|s| - 1] == ShowNat(n / 10);
    }
  }

  lemma {:induction false} DigitPrefixOfDigits(s: string)
    requires AllDigits(s)
    ensures DigitPrefix(s) == s
  {
    if s != [] {
      DigitPrefixOfDigits(s[1..]);
    }
  }

  lemma ShowIntShape(n: int)
    ensures SkipSpaces(ShowInt(n)) == ShowInt(n)
    ensures StripSign(ShowInt(n)) == (n < 0, ShowNat(if n < 0 then -n else n))
  {
    var digits := ShowNat(if n < 0 then -n else n);
    assert IsDigit(digits[0]);
    assert ShowInt(n)[0] == '-' || ShowInt(n)[0] == digits[0];
    assert ShowInt(n) + [] == ShowInt(n);
    SignOfShowInt(n, []);
  }

  /** `std::stoi` reads back every `int` from its decimal rendering. */
  lemma StoIShowInt(n: int)
    requires IntMin <= n <= IntMax
    ensures StoI(ShowInt(n)) == Ok(n)
  {
    var m: nat := if n < 0 then -n else n;
    ShowNatValue(m);
    DigitPrefixOfDigits(ShowNat(m));
    ShowIntShape(n);
  }

  /** `m` times 10 to the power `k`. */
  function Shift(m: real, k: nat): (r: real)
    ensures m >= 0.0 ==> r >= m
  {
    if k == 0 then m else 10.0 * Shift(m, k - 1)
  }

  /** `m` divided by 10 to the power `k`. */
  function Unshift(m: real, k: nat): (r: real)
    ensures m >= 0.0 ==> 0.0 <= r <= m
  {
    if k == 0 then m else Unshift(m, k - 1) / 10.0
  }

  // ---------------------------------------------------------------------------
  // Reading a `double` from a string stream

  /**
    A string stream as `operator>>` sees it: the characters not yet
    extracted, and whether its fail bit is set.
   */
  datatype Stream = Stream(rest: string, failed: bool)

  /**
    What a `double` variable holds after an extraction: a value, or an
    indeterminate one when no extraction ever stored into the uninitialised
    variable.
   */
  datatype Scalar = Known(value: real) | Indeterminate

  predicate IsExponentMark(c: char) {
    c == 'e' || c == 'E'
  }

  /** A scanned numeral: whether it is accepted, its value, and what follows it. */
  datatype Numeral = Numeral(ok: bool, value: real, rest: string)

  /**
    The numeral the GNU `num_get` collects at the front of `t`: an optional
    sign, integer digits, an optional '.' with fraction digits, and an
    optional exponent mark `e`/`E` with an optional sign and digits. A sign
    anywhere else ends the numeral. It is accepted when it has a digit before
    the exponent and, if an exponent mark was taken, a digit after it.
   */
  function ScanNumeral(t: string): (r: Numeral)
    ensures |r.rest| <= |t|
  {
    StripSignShortens(t);
    var (neg, body) := StripSign(t);
    var ip := DigitPrefix(body);
    var r1 := body[|ip|..];
    if r1 != [] && r1[0] == '.' then
      var fp := DigitPrefix(r1[1..]);
      var mag := DigitsValue(ip) as real + Unshift(DigitsValue(fp) as real, |fp|);
      Signed(neg, ScanExponent(ip != [] || fp != [], mag, r1[1..][|fp|..]))
    else
      Signed(neg, ScanExponent(ip != [], DigitsValue(ip) as real, r1))
  }

  /** `n` with its value negated when `neg`. */
  function Signed(neg: bool, n: Numeral): (r: Numeral)
    ensures r.ok == n.ok && r.rest == n.rest
  {
    if neg then n.(value := -n.value) else n
  }

  /**
    The numeral after its mantissa: `mantissa` says whether the mantissa had a
    digit and `mag` is its magnitude; `t` is what follows it.
   */
  function ScanExponent(mantissa: bool, mag: real, t: string): (r: Numeral)
    ensures |r.rest| <= |t|
  {
    if mantissa && t != [] && IsExponentMark(t[0]) then
      StripSignShortens(t[1..]);
      var (eneg, ebody) := StripSign(t[1..]);
      var ed := DigitPrefix(ebody);
      var e := DigitsValue(ed);
      Numeral(ed != [], if eneg then Unshift(mag, e) else Shift(mag, e), ebody[|ed|..])
    else
      Numeral(mantissa, mag, t)
  }

  lemma StripSignShortens(s: string)
    ensures |StripSign(s).1| <= |s|
  {
  }

  /**
    `stream >> x` for a `double x`. A stream whose fail bit is set, or that
    holds nothing but whitespace, stores nothing and is failed afterwards. A
    rejected numeral stores 0 and sets the fail bit. An accepted numeral
    stores its value, and the next extraction starts right after it, even
    inside the same whitespace-delimited word.
   */
  function ReadDouble(st: Stream): (r: (Scalar, Stream))
    ensures |r.1.rest| <= |st.rest|
    decreases |st.rest|
  {
    if st.failed then (Indeterminate, st)
    else if st.rest == [] then (Indeterminate, Stream([], true))
    else if IsSpace(st.rest[0]) then ReadDouble(Stream(st.rest[1..], false))
    else
      var n := ScanNumeral(st.rest);
      if n.ok then (Known(n.value), Stream(n.rest, false))
      else (Known(0.0), Stream(n.rest, true))
  }

  /**
    An extraction leaves the variable indeterminate exactly when the stream
    had already failed or held only whitespace, and then the stream is
    failed; a failed stream is left as it is.
   */
  lemma {:induction false} ReadDoubleOutcome(st: Stream)
    ensures ReadDouble(st).0.Indeterminate? <==> st.failed || SkipSpaces(st.rest) == []
    ensures ReadDouble(st).0.Indeterminate? ==> ReadDouble(st).1.failed
    ensures st.failed ==> ReadDouble(st) == (Indeterminate, st)
    decreases |st.rest|
  {
    if !st.failed && st.rest != [] && IsSpace(st.rest[0]) {
      ReadDoubleOutcome(Stream(st.rest[1..], false));
    }
  }

  /** What may follow a numeral without being read as part of it. */
  predicate EndsNumeral(rest: string) {
    rest == [] || !(IsDigit(rest[0]) || rest[0] == '.' || IsExponentMark(rest[0]))
  }

  lemma {:induction false} DigitPrefixOfDigitsThen(ds: string, rest: string)
    requires AllDigits(ds) && (rest == [] || !IsDigit(rest[0]))
    ensures DigitPrefix(ds + rest) == ds
  {
    if ds != [] {
      assert (ds + rest)[1..] == ds[1..] + rest;
      DigitPrefixOfDigitsThen(ds[1..], rest);
      assert [ds[0]] + ds[1..] == ds;
    }
  }

  lemma SignOfShowInt(n: int, rest: string)
    ensures StripSign(ShowInt(n) + rest) == (n < 0, ShowNat(if n < 0 then -n else n) + rest)
  {
    var digits := ShowNat(if n < 0 then -n else n);
    var s := ShowInt(n) + rest;
    assert IsDigit(digits[0]);
    if n < 0 {
      assert ShowInt(n) == "-" + digits;
      assert s == "-" + (digits + rest);
      assert s[0] == '-' && s[1..] == digits + rest;
    } else {
      assert ShowInt(n) == digits;
      assert s[0] == digits[0];
    }
  }

  /** The numeral scanner reads an integer's decimal form and stops right after it. */
  lemma ScanShowInt(n: int, rest: string)
    requires EndsNumeral(rest)
    ensures ScanNumeral(ShowInt(n) + rest) == Numeral(true, n as real, rest)
  {
    var m: nat := if n < 0 then -n else n;
    var digits := ShowNat(m);
    SignOfShowInt(n, rest);
    ShowNatValue(m);
    DigitPrefixOfDigitsThen(digits, rest);
    assert (digits + rest)[|digits|..] == rest;
  }

  /**
    Extracting a `double` from an integer's decimal form stores that integer
    and leaves the stream just after it, unfailed.
   */
  lemma ReadDoubleShowInt(n: int, rest: string)
    requires EndsNumeral(rest)
    ensures ReadDouble(Stream(ShowInt(n) + rest, false)) == (Known(n as real), Stream(rest, false))
  {
    var s := ShowInt(n) + rest;
    var digits := ShowNat(if n < 0 then -n else n);
    assert IsDigit(digits[0]);
    assert s[0] == '-' || s[0] == digits[0];
    assert SkipSpaces(s) == s;
    ScanShowInt(n, rest);
  }

  /** Whitespace in front of an extraction is skipped. */
  lemma ReadDoubleAfterBlank(s: string)
    ensures ReadDouble(Stream(" " + s, false)) == ReadDouble(Stream(s, false))
  {
    assert (" " + s)[1..] == s;
  }

  /** A blank, an integer numeral, then `rest`: the extraction stores the integer. */
  lemma ReadDoubleBlankShowInt(n: int, rest: string)
    requires EndsNumeral(rest)
    ensures ReadDouble(Stream(" " + ShowInt(n) + rest, false)) == (Known(n as real), Stream(rest, false))
  {
    assert " " + ShowInt(n) + rest == " " + (ShowInt(n) + rest);
    ReadDoubleAfterBlank(ShowInt(n) + rest);
    ReadDoubleShowInt(n, rest);
  }

  /** Integers written out, each after one blank. */
  function Blanked(ns: seq<int>): (s: string)
    ensures s == [] || s[0] == ' '
  {
    if ns == [] then [] else " " + ShowInt(ns[0]) + Blanked(ns[1..])
  }

  /**
    Reading a `double` from blank-separated integers stores the first of
    them and leaves the rest to be read; from nothing, it stores nothing.
   */
  lemma ReadBlanked(ns: seq<int>)
    ensures ns == [] ==> ReadDouble(Stream(Blanked(ns), false)) == (Indeterminate, Stream([], true))
    ensures ns != [] ==>
      ReadDouble(Stream(Blanked(ns), false)) == (Known(ns[0] as real), Stream(Blanked(ns[1..]), false))
  {
    if ns != [] {
      ReadDoubleBlankShowInt(ns[0], Blanked(ns[1..]));
    }
  }
}

=== FILE: raster.dfy ===
/**
  The rasterizer's bookkeeping: `init_zbuffer` and the pixel loop of
  `rasterize`. A triangle arrives in clip coordinates; its vertices are
  divided by `w` and sent through the viewport, the pixels of the clamped
  bounding box are visited, and a pixel is written when it lies inside the
  triangle, is nearer than the stored depth, and the fragment shader does
  not discard it.

  The shader's `fragment` is a function parameter. The barycentric solve
  (`ABC.invert_transpose() * (x, y, 1)`) and `ABC.det()` are computed
  exactly, by Cramer's rule, with the cofactor determinant of the 3x3
  matrix whose rows are `(x, y, 1)` of the three screen vertices.
 */
module Raster {
  import opened Geometry
  import opened Grid

  /** The depth every z-buffer cell starts at: nothing is drawn there yet. */
  const Sentinel: real := -1000.0

  /** `init_zbuffer(width, height)`: one cell per pixel, all holding the sentinel. */
  function InitZbuffer(width: int, height: int): (z: seq<real>)
    requires 0 <= width && 0 <= height
    ensures |z| == width * height
    ensures forall i :: 0 <= i < |z| ==> z[i] == Sentinel
  {
    seq(width * height, _ => Sentinel)
  }

  /** Three vertices in clip coordinates, as the shader's `vertex` returns them. */
  datatype Triangle = Triangle(v0: Vec4, v1: Vec4, v2: Vec4)

  /** The perspective divide needs a non-zero `w` at each vertex. */
  predicate Homogeneous(t: Triangle) {
    t.v0.w != 0.0 && t.v1.w != 0.0 && t.v2.w != 0.0
  }

  /** What `fragment` returns: whether to discard the pixel, and its colour. */
  datatype Fragment = Fragment(discard: bool, color: Color)

  /**
    A vertex after projection: its screen position, its depth in normalised
    device coordinates, and the clip-space `w` it was divided by.
   */
  datatype Projected = Projected(pos: Vec2, z: real, w: real)

  datatype Screen = Screen(a: Projected, b: Projected, c: Projected)

  /** `clip / clip.w`: the point in normalised device coordinates. */
  function Ndc(v: Vec4): (n: Vec4)
    requires v.w != 0.0
    ensures n.w == 1.0
  {
    Vec4(v.x / v.w, v.y / v.w, v.z / v.w, v.w / v.w)
  }

  function Project(viewport: Mat4, v: Vec4): Projected
    requires v.w != 0.0
  {
    var n := Ndc(v);
    var s := MulVec(viewport, n);
    Projected(Vec2(s.x, s.y), n.z, v.w)
  }

  function ToScreen(viewport: Mat4, t: Triangle): Screen
    requires Homogeneous(t)
  {
    Screen(Project(viewport, t.v0), Project(viewport, t.v1), Project(viewport, t.v2))
  }

  /**
    The determinant of the matrix with rows `(a.x, a.y, 1)`, `(b.x, b.y, 1)`,
    `(c.x, c.y, 1)`, by cofactor expansion along the first row: twice the
    signed area of the triangle.
   */
  function Cross(a: Vec2, b: Vec2, c: Vec2): real {
    a.x * (b.y - c.y) - a.y * (b.x - c.x) + (b.x * c.y - b.y * c.x)
  }

  function Det(s: Screen): real {
    Cross(s.a.pos, s.b.pos, s.c.pos)
  }

  /** The screen barycentrics of `p`, each weight being a ratio of determinants. */
  function Bary(s: Screen, p: Vec2): Vec3
    requires Det(s) != 0.0
  {
    var d := Det(s);
    Vec3(Cross(p, s.b.pos, s.c.pos) / d, Cross(s.a.pos, p, s.c.pos) / d, Cross(s.a.pos, s.b.pos, p) / d)
  }

  lemma NumeratorIdentities(a: Vec2, b: Vec2, c: Vec2, p: Vec2)
    ensures Cross(p, b, c) + Cross(a, p, c) + Cross(a, b, p) == Cross(a, b, c)
    ensures Cross(p, b, c) * a.x + Cross(a, p, c) * b.x + Cross(a, b, p) * c.x == p.x * Cross(a, b, c)
    ensures Cross(p, b, c) * a.y + Cross(a, p, c) * b.y + Cross(a, b, p) * c.y == p.y * Cross(a, b, c)
  {
  }

  lemma Quotients(n0: real, n1: real, n2: real, d: real, u: real, v: real, w: real)
    requires d != 0.0
    ensures (n0 / d) * u + (n1 / d) * v + (n2 / d) * w == (n0 * u + n1 * v + n2 * w) / d
  {
  }

  /**
    The weights are barycentric coordinates of `p`: they sum to one and
    recombine the vertices into `p`, which is what `ABC.invert_transpose()`
    applied to `(x, y, 1)` promises.
   */
  lemma BaryReconstructs(s: Screen, p: Vec2)
    requires Det(s) != 0.0
    ensures var bc := Bary(s, p);
      bc.x + bc.y + bc.z == 1.0 &&
      bc.x * s.a.pos.x + bc.y * s.b.pos.x + bc.z * s.c.pos.x == p.x &&
      bc.x * s.a.pos.y + bc.y * s.b.pos.y + bc.z * s.c.pos.y == p.y
  {
    var a, b, c, d := s.a.pos, s.b.pos, s.c.pos, Det(s);
    NumeratorIdentities(a, b, c, p);
    Quotients(Cross(p, b, c), Cross(a, p, c), Cross(a, b, p), d, 1.0, 1.0, 1.0);
    Quotients(Cross(p, b, c), Cross(a, p, c), Cross(a, b, p), d, a.x, b.x, c.x);
    Quotients(Cross(p, b, c), Cross(a, p, c), Cross(a, b, p), d, a.y, b.y, c.y);
  }

  /** The pixel test: every screen barycentric is non-negative. */
  predicate Inside(bc: Vec3) {
    !(bc.x < 0.0 || bc.y < 0.0 || bc.z < 0.0)
  }

  /** The interpolated depth `bc_screen * (ndc[0].z, ndc[1].z, ndc[2].z)`. */
  function Depth(s: Screen, bc: Vec3): real {
    bc.x * s.a.z + bc.y * s.b.z + bc.z * s.c.z
  }

  /**
    The weights handed to `fragment`: the screen weights divided by each
    vertex's clip `w`, then renormalised to sum to one. When the divided
    weights sum to zero the source divides by zero; the model passes them
    on undivided.
   */
  function ClipWeights(s: Screen, bc: Vec3): (r: Vec3)
    requires s.a.w != 0.0 && s.b.w != 0.0 && s.c.w != 0.0
    ensures var sum := bc.x / s.a.w + bc.y / s.b.w + bc.z / s.c.w;
      sum != 0.0 ==>
        r.x + r.y + r.z == 1.0 &&
        r.x * sum == bc.x / s.a.w && r.y * sum == bc.y / s.b.w && r.z * sum == bc.z / s.c.w
  {
    var u := Vec3(bc.x / s.a.w, bc.y / s.b.w, bc.z / s.c.w);
    var sum := u.x + u.y + u.z;
    if sum == 0.0 then u
    else
      DivSum(u.x, u.y, u.z, sum);
      SelfQuotient(sum);
      Vec3(u.x / sum, u.y / sum, u.z / sum)
  }

  /**
    For a triangle in front of the camera (every clip `w` positive), the
    perspective-corrected weights of an inside pixel are again barycentric.
   */
  lemma ClipWeightsBarycentric(s: Screen, bc: Vec3)
    requires s.a.w > 0.0 && s.b.w > 0.0 && s.c.w > 0.0
    requires Inside(bc) && bc.x + bc.y + bc.z == 1.0
    ensures var cw := ClipWeights(s, bc);
      Inside(cw) && cw.x + cw.y + cw.z == 1.0
  {
    var u := Vec3(bc.x / s.a.w, bc.y / s.b.w, bc.z / s.c.w);
    PositiveQuotient(bc.x, s.a.w);
    PositiveQuotient(bc.y, s.b.w);
    PositiveQuotient(bc.z, s.c.w);
    Renormalised(u.x, u.y, u.z);
  }

  lemma PositiveQuotient(a: real, w: real)
    requires a >= 0.0 && w > 0.0
    ensures a / w >= 0.0 && (a > 0.0 ==> a / w > 0.0)
  {
  }

  /** Dividing non-negative weights with a positive sum by that sum makes them sum to one. */
  lemma Renormalised(u0: real, u1: real, u2: real)
    requires u0 >= 0.0 && u1 >= 0.0 && u2 >= 0.0 && u0 + u1 + u2 > 0.0
    ensures var sum := u0 + u1 + u2;
      u0 / sum >= 0.0 && u1 / sum >= 0.0 && u2 / sum >= 0.0 && u0 / sum + u1 / sum + u2 / sum == 1.0
  {
    var sum := u0 + u1 + u2;
    PositiveQuotient(u0, sum);
    PositiveQuotient(u1, sum);
    PositiveQuotient(u2, sum);
    DivSum(u0, u1, u2, sum);
    SelfQuotient(sum);
  }

  lemma DivSum(a: real, b: real, c: real, d: real)
    requires d != 0.0
    ensures a / d + b / d + c / d == (a + b + c) / d
  {
  }

  lemma SelfQuotient(d: real)
    requires d != 0.0
    ensures d / d == 1.0
  {
  }

  /** The pixel rectangle a triangle's loops run over, bounds inclusive. */
  datatype Box = Box(x0: int, x1: int, y0: int, y1: int)

  predicate InBox(b: Box, px: int, py: int) {
    b.x0 <= px <= b.x1 && b.y0 <= py <= b.y1
  }

  function Max(a: int, b: int): int { if a >= b then a else b }
  function Min(a: int, b: int): int { if a <= b then a else b }

  /**
    The bounding box of the screen triangle, truncated to `int` and clamped
    to the framebuffer: the loops start at `max(bbmin, 0)` and stop at
    `min(bbmax, size - 1)`.
   */
  function PixelBox(s: Screen, width: int, height: int): (r: Box)
    ensures forall px, py :: InBox(r, px, py) <==>
      InGrid(px, py, width, height) &&
      Trunc(Min3(s.a.pos.x, s.b.pos.x, s.c.pos.x)) <= px <= Trunc(Max3(s.a.pos.x, s.b.pos.x, s.c.pos.x)) &&
      Trunc(Min3(s.a.pos.y, s.b.pos.y, s.c.pos.y)) <= py <= Trunc(Max3(s.a.pos.y, s.b.pos.y, s.c.pos.y))
  {
    var a, b, c := s.a.pos, s.b.pos, s.c.pos;
    Box(Max(Trunc(Min3(a.x, b.x, c.x)), 0), Min(Trunc(Max3(a.x, b.x, c.x)), width - 1),
        Max(Trunc(Min3(a.y, b.y, c.y)), 0), Min(Trunc(Max3(a.y, b.y, c.y)), height - 1))
  }

  /** Every pixel the loops visit is a pixel of the framebuffer, so its index is in range. */
  lemma BoxInGrid(s: Screen, width: int, height: int, px: int, py: int)
    requires InBox(PixelBox(s, width, height), px, py)
    ensures InGrid(px, py, width, height)
    ensures 0 <= Idx(px, py, width) < width * height
  {
    IdxInBounds(px, py, width, height);
  }

  /** A weighted average with non-negative weights lies between the extremes. */
  lemma ConvexBounds(w0: real, w1: real, w2: real, a: real, b: real, c: real)
    requires w0 >= 0.0 && w1 >= 0.0 && w2 >= 0.0 && w0 + w1 + w2 == 1.0
    ensures Min3(a, b, c) <= w0 * a + w1 * b + w2 * c <= Max3(a, b, c)
  {
    var lo, hi := Min3(a, b, c), Max3(a, b, c);
    NonNegProduct(w0, a - lo);
    NonNegProduct(w1, b - lo);
    NonNegProduct(w2, c - lo);
    NonNegProduct(w0, hi - a);
    NonNegProduct(w1, hi - b);
    NonNegProduct(w2, hi - c);
    assert w0 * a + w1 * b + w2 * c - lo == w0 * (a - lo) + w1 * (b - lo) + w2 * (c - lo);
    assert hi - (w0 * a + w1 * b + w2 * c) == w0 * (hi - a) + w1 * (hi - b) + w2 * (hi - c);
  }

  lemma NonNegProduct(a: real, b: real)
    requires a >= 0.0 && b >= 0.0
    ensures a * b >= 0.0
  {
  }

  /** A pixel whose integer coordinate lies between two reals lies between their truncations, once clamped. */
  lemma TruncBracket(lo: real, hi: real, p: int, size: int)
    requires lo <= p as real <= hi && 0 <= p < size
    ensures Max(Trunc(lo), 0) <= p <= Min(Trunc(hi), size - 1)
  {
  }

  /**
    The bounding box loses no pixel: every framebuffer pixel inside the
    triangle is visited by the loops.
   */
  lemma BoxCoversInside(s: Screen, width: int, height: int, px: int, py: int)
    requires Det(s) != 0.0 && InGrid(px, py, width, height)
    requires Inside(Bary(s, Vec2(px as real, py as real)))
    ensures InBox(PixelBox(s, width, height), px, py)
  {
    InsideWithinHull(s, Vec2(px as real, py as real));
    TruncBracket(Min3(s.a.pos.x, s.b.pos.x, s.c.pos.x), Max3(s.a.pos.x, s.b.pos.x, s.c.pos.x), px, width);
    TruncBracket(Min3(s.a.pos.y, s.b.pos.y, s.c.pos.y), Max3(s.a.pos.y, s.b.pos.y, s.c.pos.y), py, height);
  }

  /** A point inside the triangle lies within the extremes of its vertices' coordinates. */
  lemma InsideWithinHull(s: Screen, p: Vec2)
    requires Det(s) != 0.0 && Inside(Bary(s, p))
    ensures Min3(s.a.pos.x, s.b.pos.x, s.c.pos.x) <= p.x <= Max3(s.a.pos.x, s.b.pos.x, s.c.pos.x)
    ensures Min3(s.a.pos.y, s.b.pos.y, s.c.pos.y) <= p.y <= Max3(s.a.pos.y, s.b.pos.y, s.c.pos.y)
  {
    var bc := Bary(s, p);
    BaryReconstructs(s, p);
    HullBounds(bc.x, bc.y, bc.z, s.a.pos.x, s.b.pos.x, s.c.pos.x, p.x);
    HullBounds(bc.x, bc.y, bc.z, s.a.pos.y, s.b.pos.y, s.c.pos.y, p.y);
  }

  /** One coordinate of a convex combination lies within the extremes it combines. */
  lemma HullBounds(w0: real, w1: real, w2: real, a: real, b: real, c: real, t: real)
    requires w0 >= 0.0 && w1 >= 0.0 && w2 >= 0.0 && w0 + w1 + w2 == 1.0
    requires w0 * a + w1 * b + w2 * c == t
    ensures Min3(a, b, c) <= t <= Max3(a, b, c)
  {
    ConvexBounds(w0, w1, w2, a, b, c);
  }

  /** The loop body's verdict at one pixel. */
  datatype Outcome = Keep | Write(depth: real, color: Color)

  /**
    One iteration of the inner loop at pixel `(px, py)` whose stored depth is
    `stored`: skip it when outside the triangle, when not nearer than the
    stored depth, or when the fragment discards; otherwise write.
   */
  function PixelOutcome(s: Screen, frag: Vec3 -> Fragment, px: int, py: int, stored: real): (r: Outcome)
    requires Det(s) != 0.0 && s.a.w != 0.0 && s.b.w != 0.0 && s.c.w != 0.0
    ensures var bc := Bary(s, Vec2(px as real, py as real));
      r.Write? <==> Inside(bc) && stored < Depth(s, bc) && !frag(ClipWeights(s, bc)).discard
    ensures var bc := Bary(s, Vec2(px as real, py as real));
      r.Write? ==> r.depth == Depth(s, bc) && stored < r.depth && r.color == frag(ClipWeights(s, bc)).color
  {
    var bc := Bary(s, Vec2(px as real, py as real));
    if !Inside(bc) then Keep
    else
      var z := Depth(s, bc);
      if z <= stored then Keep
      else
        var f := frag(ClipWeights(s, bc));
        if f.discard then Keep else Write(z, f.color)
  }

  /**
    The depth and colour a pixel ends up with after one `rasterize` call,
    given what it held before: the reference the pixel loop is checked against.
   */
  function After(s: Screen, frag: Vec3 -> Fragment, width: int, height: int,
                 px: int, py: int, z0: real, c0: Color): (r: (real, Color))
    requires s.a.w != 0.0 && s.b.w != 0.0 && s.c.w != 0.0
    ensures r == (z0, c0) || (Det(s) >= 1.0 && InGrid(px, py, width, height) && z0 < r.0)
  {
    if Det(s) < 1.0 || !InBox(PixelBox(s, width, height), px, py) then (z0, c0)
    else match PixelOutcome(s, frag, px, py, z0)
      case Keep => (z0, c0)
      case Write(z, c) => (z, c)
  }

  /**
    The write rule: a pixel changes only when the triangle is not degenerate,
    the pixel is inside it, its depth is strictly greater than the stored one,
    and the fragment is kept; depth and colour then change together. So the
    depth never decreases, and an unchanged depth means an unchanged colour.
   */
  lemma AfterWriteRule(s: Screen, frag: Vec3 -> Fragment, width: int, height: int,
                       px: int, py: int, z0: real, c0: Color)
    requires s.a.w != 0.0 && s.b.w != 0.0 && s.c.w != 0.0
    ensures var r := After(s, frag, width, height, px, py, z0, c0);
      z0 <= r.0 && (r.0 == z0 ==> r.1 == c0)
    ensures var r := After(s, frag, width, height, px, py, z0, c0);
      r != (z0, c0) ==>
        Det(s) >= 1.0 &&
        var bc := Bary(s, Vec2(px as real, py as real));
        Inside(bc) && r.0 == Depth(s, bc) && z0 < r.0 &&
        !frag(ClipWeights(s, bc)).discard && r.1 == frag(ClipWeights(s, bc)).color
  {
  }

  /** A discarded fragment changes neither the depth nor the colour. */
  lemma DiscardKeeps(s: Screen, frag: Vec3 -> Fragment, width: int, height: int,
                     px: int, py: int, z0: real, c0: Color)
    requires s.a.w != 0.0 && s.b.w != 0.0 && s.c.w != 0.0 && Det(s) != 0.0
    requires frag(ClipWeights(s, Bary(s, Vec2(px as real, py as real)))).discard
    ensures After(s, frag, width, height, px, py, z0, c0) == (z0, c0)
  {
  }

  /** A triangle whose determinant is below one leaves every pixel as it was. */
  lemma ThinTriangleKeeps(s: Screen, frag: Vec3 -> Fragment, width: int, height: int,
                          px: int, py: int, z0: real, c0: Color)
    requires s.a.w != 0.0 && s.b.w != 0.0 && s.c.w != 0.0 && Det(s) < 1.0
    ensures After(s, frag, width, height, px, py, z0, c0) == (z0, c0)
  {
  }

  /**
    For a framebuffer pixel the bounding box plays no part in the result:
    the outcome is that of the inside/depth/discard tests alone.
   */
  lemma AfterIgnoresBox(s: Screen, frag: Vec3 -> Fragment, width: int, height: int,
                        px: int, py: int, z0: real, c0: Color)
    requires s.a.w != 0.0 && s.b.w != 0.0 && s.c.w != 0.0 && Det(s) >= 1.0
    requires InGrid(px, py, width, height)
    ensures After(s, frag, width, height, px, py, z0, c0) ==
      match PixelOutcome(s, frag, px, py, z0)
        case Keep => (z0, c0)
        case Write(z, c) => (z, c)
  {
    if Inside(Bary(s, Vec2(px as real, py as real))) {
      BoxCoversInside(s, width, height, px, py);
    }
  }

  /**
    Drawing the same triangle twice is the same as drawing it once: the
    second pass finds every written pixel already at the triangle's depth.
   */
  lemma AfterIdempotent(s: Screen, frag: Vec3 -> Fragment, width: int, height: int,
                        px: int, py: int, z0: real, c0: Color)
    requires s.a.w != 0.0 && s.b.w != 0.0 && s.c.w != 0.0
    ensures var r := After(s, frag, width, height, px, py, z0, c0);
      After(s, frag, width, height, px, py, r.0, r.1) == r
  {
  }

  /** The pixels the loops have finished when the cursor is at `(x, y)`. */
  predicate Visited(b: Box, x: int, y: int, px: int, py: int) {
    InBox(b, px, py) && (px < x || (px == x && py < y))
  }

  /** Every cell holds at least its old depth, and a cell whose depth is unchanged kept its colour. */
  predicate Grown(zbuf: seq<real>, fb: seq<Color>, zs: seq<real>, img: seq<Color>)
    requires |zs| == |zbuf| && |img| == |fb| && |zbuf| == |fb|
  {
    forall i :: 0 <= i < |zs| ==> zbuf[i] <= zs[i] && (zs[i] == zbuf[i] ==> img[i] == fb[i])
  }

  /**
    `rasterize(clip, shader, framebuffer)`: one triangle drawn into the depth
    buffer `zbuf` and the colour buffer `fb` of a `width` x `height` image.
    Every pixel ends as `After` says; depths never decrease; a pixel whose
    depth did not change kept its colour; a thin triangle changes nothing.
   */
  method Rasterize(viewport: Mat4, clip: Triangle, frag: Vec3 -> Fragment, width: int, height: int,
                   zbuf: seq<real>, fb: seq<Color>)
    returns (zs: seq<real>, img: seq<Color>)
    requires Homogeneous(clip)
    requires 0 <= width && 0 <= height && |zbuf| == width * height && |fb| == width * height
    ensures |zs| == |zbuf| && |img| == |fb|
    ensures forall px, py :: InGrid(px, py, width, height) ==> 0 <= Idx(px, py, width) < |zs|
    ensures forall px, py :: InGrid(px, py, width, height) ==>
      (zs[Idx(px, py, width)], img[Idx(px, py, width)]) ==
      After(ToScreen(viewport, clip), frag, width, height, px, py, zbuf[Idx(px, py, width)], fb[Idx(px, py, width)])
    ensures Grown(zbuf, fb, zs, img)
    ensures Det(ToScreen(viewport, clip)) < 1.0 ==> zs == zbuf && img == fb
  {
    AllIdxInBounds(width, height);
    var s := ToScreen(viewport, clip);
    zs, img := zbuf, fb;
    if Det(s) < 1.0 {
      return;
    }
    var b := PixelBox(s, width, height);
    var x := b.x0;
    while x <= b.x1
      invariant b.x0 <= x && (x <= b.x1 + 1 || x == b.x0)
      invariant |zs| == |zbuf| && |img| == |fb|
      invariant Grown(zbuf, fb, zs, img)
      invariant forall px, py :: InGrid(px, py, width, height) ==>
        (zs[Idx(px, py, width)], img[Idx(px, py, width)]) ==
        if Visited(b, x, b.y0, px, py)
        then After(s, frag, width, height, px, py, zbuf[Idx(px, py, width)], fb[Idx(px, py, width)])
        else (zbuf[Idx(px, py, width)], fb[Idx(px, py, width)])
    {
      var y := b.y0;
      while y <= b.y1
        invariant b.y0 <= y && (y <= b.y1 + 1 || y == b.y0)
        invariant |zs| == |zbuf| && |img| == |fb|
        invariant Grown(zbuf, fb, zs, img)
        invariant forall px, py :: InGrid(px, py, width, height) ==>
          (zs[Idx(px, py, width)], img[Idx(px, py, width)]) ==
          if Visited(b, x, y, px, py)
          then After(s, frag, width, height, px, py, zbuf[Idx(px, py, width)], fb[Idx(px, py, width)])
          else (zbuf[Idx(px, py, width)], fb[Idx(px, py, width)])
      {
        BoxInGrid(s, width, height, x, y);
        OtherPixels(x, y, width, height);
        zs, img := ShadePixel(s, frag, x, y, Idx(x, y, width), zs, img);
        y := y + 1;
      }
      x := x + 1;
    }
  }

  /**
    The body of the pixel loop at `(x, y)`, stored at index `i`: the inside
    test, the depth test, the fragment call and its discard test, then the
    two writes.
   */
  method ShadePixel(s: Screen, frag: Vec3 -> Fragment, x: int, y: int, i: int,
                    zs: seq<real>, img: seq<Color>)
    returns (zs': seq<real>, img': seq<Color>)
    requires Det(s) != 0.0 && s.a.w != 0.0 && s.b.w != 0.0 && s.c.w != 0.0
    requires 0 <= i < |zs| == |img|
    ensures match PixelOutcome(s, frag, x, y, zs[i])
      case Keep => zs' == zs && img' == img
      case Write(z, c) => z > zs[i] && zs' == zs[i := z] && img' == img[i := c]
  {
    zs', img' := zs, img;
    var bc := Bary(s, Vec2(x as real, y as real));
    var weights := ClipWeights(s, bc);
    if bc.x < 0.0 || bc.y < 0.0 || bc.z < 0.0 {
      return;
    }
    var z := Depth(s, bc);
    if z <= zs[i] {
      return;
    }
    var f := frag(weights);
    if f.discard {
      return;
    }
    zs' := zs[i := z];
    img' := img[i := f.color];
  }

  lemma GrownTransitive(z0: seq<real>, c0: seq<Color>, z1: seq<real>, c1: seq<Color>, z2: seq<real>, c2: seq<Color>)
    requires |z0| == |c0| == |z1| == |c1| == |z2| == |c2|
    requires Grown(z0, c0, z1, c1) && Grown(z1, c1, z2, c2)
    ensures Grown(z0, c0, z2, c2)
  {
    forall i | 0 <= i < |z2|
      ensures z0[i] <= z2[i] && (z2[i] == z0[i] ==> c2[i] == c0[i])
    {
      assert z0[i] <= z1[i] <= z2[i];
    }
  }

  /**
    The face loop of the main pass: the faces' clip triangles are rasterized
    in order into the same buffers, face `k` shaded by `frag(k, _)`. Depths
    only grow, and a pixel whose final depth equals its initial one kept its
    colour.
   */
  method DrawFaces(viewport: Mat4, faces: seq<Triangle>, frag: (int, Vec3) -> Fragment, width: int, height: int,
                   zbuf: seq<real>, fb: seq<Color>)
    returns (zs: seq<real>, img: seq<Color>)
    requires forall k :: 0 <= k < |faces| ==> Homogeneous(faces[k])
    requires 0 <= width && 0 <= height && |zbuf| == width * height && |fb| == width * height
    ensures |zs| == |zbuf| && |img| == |fb|
    ensures Grown(zbuf, fb, zs, img)
    ensures faces == [] ==> zs == zbuf && img == fb
  {
    zs, img := zbuf, fb;
    var k := 0;
    while k < |faces|
      invariant 0 <= k <= |faces|
      invariant |zs| == |zbuf| && |img| == |fb|
      invariant Grown(zbuf, fb, zs, img)
      invariant k == 0 ==> zs == zbuf && img == fb
    {
      var face := k;
      var z2, c2 := Rasterize(viewport, faces[k], (bar: Vec3) => frag(face, bar), width, height, zs, img);
      GrownTransitive(zbuf, fb, zs, img, z2, c2);
      zs, img := z2, c2;
      k := k + 1;
    }
  }
}

=== FILE: shadow.dfy ===
/**
  The shadow pass of the renderer's main program, after both depth buffers
  exist: the per-pixel lit/occluded decision, the mask image, the darkening
  of occluded pixels, and the depth-buffer dump `drop_zbuffer`.

  The reprojection of a camera pixel into the light's screen (the products
  with the matrices `M` and `N` and the division by `w`) is a function
  parameter, as is the colour rescaling of a darkened pixel.
 */
module Shadow {
  import opened Geometry
  import opened Grid

  /**
    The depth floor -100. `drop_zbuffer` skips depth cells below it (the
    depth buffer starts at -1000), and the mask loop calls a pixel lit when
    the z of its point carried back to the scene is below it.
   */
  const DepthFloor: real := -100.0

  /** The slack a point may sit below the shadow map's depth and still count as lit. */
  const Bias: real := 0.03

  /** `z < -100`, the test both loops write as `z <- 100`. */
  predicate BelowFloor(z: real) {
    z < DepthFloor
  }

  /**
    A camera pixel carried back to the scene and into the light's view:
    `fragment` is `M * (x, y, depth, 1)`, and `p` is `N * fragment` after the
    division by its `w`.
   */
  datatype Reprojected = Reprojected(fragment: Vec4, p: Vec3)

  /** The light-space point falls on the shadow map `[0, sw) x [0, sh)`. */
  predicate OnShadowMap(p: Vec3, sw: int, sh: int) {
    !(p.x < 0.0 || p.x >= sw as real || p.y < 0.0 || p.y >= sh as real)
  }

  /** `int(p.x) + int(p.y) * shadoww`: a cell of the shadow map for any point on it. */
  function ShadowIndex(p: Vec3, sw: int, sh: int): (i: int)
    requires OnShadowMap(p, sw, sh)
    ensures 0 <= i < sw * sh
  {
    IdxInBounds(Trunc(p.x), Trunc(p.y), sw, sh);
    Idx(Trunc(p.x), Trunc(p.y), sw)
  }

  /**
    The `lit` flag of one pixel. The three tests run left to right and stop
    at the first that holds, so the shadow map is read only for a point on
    it; that is what makes the read well-defined here.
   */
  predicate Lit(r: Reprojected, shadow: seq<real>, sw: int, sh: int)
    requires |shadow| == sw * sh
  {
    BelowFloor(r.fragment.z) ||
    !OnShadowMap(r.p, sw, sh) ||
    r.p.z > shadow[ShadowIndex(r.p, sw, sh)] - Bias
  }

  /** Points carried back below the depth floor, and points off the shadow map, are always lit. */
  lemma LitWithoutLookup(r: Reprojected, shadow: seq<real>, sw: int, sh: int)
    requires |shadow| == sw * sh
    requires BelowFloor(r.fragment.z) || !OnShadowMap(r.p, sw, sh)
    ensures Lit(r, shadow, sw, sh)
  {
  }

  /**
    The bias keeps a surface from shadowing itself: a point whose light depth
    is exactly what the shadow map stores is lit, and so is any point up to
    the bias behind it.
   */
  lemma BiasAvoidsSelfShadow(r: Reprojected, shadow: seq<real>, sw: int, sh: int, behind: real)
    requires |shadow| == sw * sh && OnShadowMap(r.p, sw, sh)
    requires 0.0 <= behind < Bias && r.p.z == shadow[ShadowIndex(r.p, sw, sh)] - behind
    ensures Lit(r, shadow, sw, sh)
  {
  }

  /** Moving a point nearer the light, with the same shadow-map cell, cannot put it in shadow. */
  lemma LitMonotone(r: Reprojected, z: real, shadow: seq<real>, sw: int, sh: int)
    requires |shadow| == sw * sh && Lit(r, shadow, sw, sh) && z >= r.p.z
    ensures Lit(Reprojected(r.fragment, Vec3(r.p.x, r.p.y, z)), shadow, sw, sh)
  {
  }

  /**
    The mask loop: `mask[x + y * width]` is the `lit` flag of pixel `(x, y)`,
    reprojected from its camera depth in `zcopy` against the light's depth
    buffer `shadow`.
   */
  method ComputeMask(reproject: (real, real, real) -> Reprojected, zcopy: seq<real>, width: int, height: int,
                     shadow: seq<real>, sw: int, sh: int)
    returns (mask: seq<bool>)
    requires 0 <= width && 0 <= height && |zcopy| == width * height && |shadow| == sw * sh
    ensures |mask| == width * height
    ensures forall x, y :: InGrid(x, y, width, height) ==> 0 <= Idx(x, y, width) < |mask|
    ensures forall x, y :: InGrid(x, y, width, height) ==>
      mask[Idx(x, y, width)] == Lit(reproject(x as real, y as real, zcopy[Idx(x, y, width)]), shadow, sw, sh)
  {
    mask := MapPixels(width, height, zcopy, seq(width * height, _ => false),
      (x: int, y: int, depth: real, _: bool) => Lit(reproject(x as real, y as real, depth), shadow, sw, sh));
  }

  /** One pixel of the mask image: white where occluded, the canvas elsewhere. */
  function MaskPixel(lit: bool, canvas: Color): (c: Color) {
    if lit then canvas else White
  }

  /** The mask image is white exactly at occluded pixels, whatever the canvas holds. */
  lemma MaskPixelWhiteIffOccluded(lit: bool, canvas: Color)
    requires canvas != White
    ensures MaskPixel(lit, canvas) == White <==> !lit
  {
  }

  /** The mask-image loop: occluded pixels are set to white, lit ones are skipped. */
  method MaskImage(mask: seq<bool>, canvas: seq<Color>, width: int, height: int) returns (img: seq<Color>)
    requires 0 <= width && 0 <= height && |mask| == width * height && |canvas| == width * height
    ensures |img| == width * height
    ensures forall x, y :: InGrid(x, y, width, height) ==> 0 <= Idx(x, y, width) < |img|
    ensures forall x, y :: InGrid(x, y, width, height) ==>
      img[Idx(x, y, width)] == (if mask[Idx(x, y, width)] then canvas[Idx(x, y, width)] else White)
  {
    img := MapPixels(width, height, mask, canvas, (_: int, _: int, lit: bool, c: Color) => MaskPixel(lit, c));
  }

  /**
    `norm(a) < 80` for the colour's blue, green and red channels, stated
    without the square root: the channels' squares sum to less than 80 * 80.
   */
  predicate Dim(c: Color) {
    c.b * c.b + c.g * c.g + c.r * c.r < 80 * 80
  }

  /**
    One pixel of the darkening loop: a lit or dim pixel is kept; any other
    takes the rescaled channels `cap(c)` with an opaque alpha.
   */
  function DarkenPixel(lit: bool, c: Color, cap: Color -> Color): (r: Color)
    ensures lit || Dim(c) ==> r == c
    ensures !lit && !Dim(c) ==> r.a == 255 && r.b == cap(c).b && r.g == cap(c).g && r.r == cap(c).r
  {
    if lit || Dim(c) then c else Color(cap(c).b, cap(c).g, cap(c).r, 255)
  }

  /**
    Darkening changes only occluded pixels that are not already dim, and
    every pixel it changes ends opaque and is white in the mask image.
   */
  lemma DarkenTouchesOnlyOccluded(lit: bool, c: Color, cap: Color -> Color, canvas: Color)
    ensures DarkenPixel(lit, c, cap) != c ==>
      !lit && !Dim(c) && DarkenPixel(lit, c, cap).a == 255 && MaskPixel(lit, canvas) == White
    ensures lit || Dim(c) ==> DarkenPixel(lit, c, cap) == c
  {
  }

  /** The darkening loop over the framebuffer. */
  method Darken(fb: seq<Color>, mask: seq<bool>, width: int, height: int, cap: Color -> Color)
    returns (out: seq<Color>)
    requires 0 <= width && 0 <= height && |mask| == width * height && |fb| == width * height
    ensures |out| == width * height
    ensures forall x, y :: InGrid(x, y, width, height) ==> 0 <= Idx(x, y, width) < |out|
    ensures forall x, y :: InGrid(x, y, width, height) ==>
      out[Idx(x, y, width)] == DarkenPixel(mask[Idx(x, y, width)], fb[Idx(x, y, width)], cap)
  {
    out := MapPixels(width, height, mask, fb, (_: int, _: int, lit: bool, c: Color) => DarkenPixel(lit, c, cap));
  }

  /** A pixel of the grey depth image; a conversion the source leaves undefined has no value. */
  datatype Grey = Grey(level: Byte) | Unspecified

  /** `(z - minz) / (maxz - minz) * 255`. */
  function Normalize(z: real, minz: real, maxz: real): real
    requires minz != maxz
  {
    (z - minz) / (maxz - minz) * 255.0
  }

  /**
    The normalisation is an increasing affine map sending `minz` to 0 and
    `maxz` to 255, so every depth between them lands in `[0, 255]`.
   */
  lemma NormalizeRange(z: real, minz: real, maxz: real)
    requires minz < maxz
    ensures Normalize(minz, minz, maxz) == 0.0
    ensures Normalize(maxz, minz, maxz) == 255.0
    ensures minz <= z <= maxz ==> 0.0 <= Normalize(z, minz, maxz) <= 255.0
    ensures forall z' :: z <= z' ==> Normalize(z, minz, maxz) <= Normalize(z', minz, maxz)
  {
    var d := maxz - minz;
    assert (maxz - minz) / d == 1.0;
    forall z' | z <= z'
      ensures Normalize(z, minz, maxz) <= Normalize(z', minz, maxz)
    {
      assert (z' - minz) / d - (z - minz) / d == (z' - z) / d;
    }
    if minz <= z <= maxz {
      assert (z - minz) / d <= 1.0 by {
        assert (maxz - minz) / d - (z - minz) / d == (maxz - z) / d;
      }
    }
  }

  /**
    `static_cast<uint8_t>` of the normalised depth. The cast truncates toward
    zero first, so it is defined exactly for a value in `(-1, 256)`; with
    `maxz == minz` the division is `0 / 0`.
   */
  function GreyOf(z: real, minz: real, maxz: real): (g: Grey)
    ensures minz == maxz ==> g == Unspecified
    ensures g.Grey? ==> -1.0 < Normalize(z, minz, maxz) < g.level as real + 1.0
    ensures g.Grey? && Normalize(z, minz, maxz) >= 0.0 ==> g.level as real <= Normalize(z, minz, maxz)
    ensures g.Grey? && Normalize(z, minz, maxz) < 0.0 ==> g.level == 0
    ensures minz != maxz && -1.0 < Normalize(z, minz, maxz) < 256.0 ==> g.Grey?
  {
    if minz == maxz then Unspecified
    else
      var n := Trunc(Normalize(z, minz, maxz));
      if 0 <= n < 256 then Grey(n) else Unspecified
  }

  /** Depths within the scanned range get a defined grey, the extremes black and white. */
  lemma GreyOfRange(z: real, minz: real, maxz: real)
    requires minz < maxz && minz <= z <= maxz
    ensures GreyOf(z, minz, maxz).Grey?
    ensures GreyOf(minz, minz, maxz) == Grey(0) && GreyOf(maxz, minz, maxz) == Grey(255)
  {
    NormalizeRange(z, minz, maxz);
  }

  /**
    The first loop of `drop_zbuffer`: the least and greatest depth over the
    cells at or above the depth floor, starting from `+1000` and `-1000`.
    Each result is its starting value or the depth of some such cell.
   */
  method DepthRange(zbuf: seq<real>, width: int, height: int) returns (minz: real, maxz: real)
    requires 0 <= width && 0 <= height && |zbuf| == width * height
    ensures minz <= 1000.0 && -1000.0 <= maxz
    ensures forall x, y :: InGrid(x, y, width, height) ==> 0 <= Idx(x, y, width) < |zbuf|
    ensures forall x, y :: InGrid(x, y, width, height) && !BelowFloor(zbuf[Idx(x, y, width)]) ==>
      minz <= zbuf[Idx(x, y, width)] <= maxz
    ensures minz == 1000.0 ||
      exists x, y :: InGrid(x, y, width, height) && !BelowFloor(zbuf[Idx(x, y, width)]) && zbuf[Idx(x, y, width)] == minz
    ensures maxz == -1000.0 ||
      exists x, y :: InGrid(x, y, width, height) && !BelowFloor(zbuf[Idx(x, y, width)]) && zbuf[Idx(x, y, width)] == maxz
  {
    AllIdxInBounds(width, height);
    minz, maxz := 1000.0, -1000.0;
    ghost var lo, hi := (0, 0), (0, 0);
    var x := 0;
    while x < width
      invariant 0 <= x <= width
      invariant minz <= 1000.0 && -1000.0 <= maxz
      invariant forall px, py :: InGrid(px, py, width, height) && px < x && !BelowFloor(zbuf[Idx(px, py, width)]) ==>
        minz <= zbuf[Idx(px, py, width)] <= maxz
      invariant minz == 1000.0 || (InGrid(lo.0, lo.1, width, height) && !BelowFloor(minz) && zbuf[Idx(lo.0, lo.1, width)] == minz)
      invariant maxz == -1000.0 || (InGrid(hi.0, hi.1, width, height) && !BelowFloor(maxz) && zbuf[Idx(hi.0, hi.1, width)] == maxz)
    {
      var y := 0;
      while y < height
        invariant 0 <= y <= height
        invariant minz <= 1000.0 && -1000.0 <= maxz
        invariant forall px, py ::
          (InGrid(px, py, width, height) && (px < x || (px == x && py < y)) && !BelowFloor(zbuf[Idx(px, py, width)])) ==>
          minz <= zbuf[Idx(px, py, width)] <= maxz
        invariant minz == 1000.0 || (InGrid(lo.0, lo.1, width, height) && !BelowFloor(minz) && zbuf[Idx(lo.0, lo.1, width)] == minz)
        invariant maxz == -1000.0 || (InGrid(hi.0, hi.1, width, height) && !BelowFloor(maxz) && zbuf[Idx(hi.0, hi.1, width)] == maxz)
      {
        var z := zbuf[Idx(x, y, width)];
        if BelowFloor(z) {
          y := y + 1;
          continue;
        }
        if z < minz {
          minz, lo := z, (x, y);
        }
        if z > maxz {
          maxz, hi := z, (x, y);
        }
        y := y + 1;
      }
      x := x + 1;
    }
  }

  /**
    `drop_zbuffer`: the grey image of a depth buffer. Cells below the depth floor keep the
    image's initial black; every other cell gets its depth normalised over
    the scanned range.
   */
  method DropZbuffer(zbuf: seq<real>, width: int, height: int)
    returns (minz: real, maxz: real, img: seq<Grey>)
    requires 0 <= width && 0 <= height && |zbuf| == width * height
    ensures |img| == width * height
    ensures forall x, y :: InGrid(x, y, width, height) ==> 0 <= Idx(x, y, width) < |img|
    ensures forall x, y :: InGrid(x, y, width, height) && BelowFloor(zbuf[Idx(x, y, width)]) ==>
      img[Idx(x, y, width)] == Grey(0)
    ensures forall x, y :: InGrid(x, y, width, height) && !BelowFloor(zbuf[Idx(x, y, width)]) ==>
      minz <= zbuf[Idx(x, y, width)] <= maxz &&
      img[Idx(x, y, width)] == GreyOf(zbuf[Idx(x, y, width)], minz, maxz)
    ensures minz < maxz ==> forall x, y :: InGrid(x, y, width, height) ==> img[Idx(x, y, width)].Grey?
  {
    minz, maxz := DepthRange(zbuf, width, height);
    img := MapPixels(width, height, zbuf, seq(width * height, _ => Grey(0)),
      (_: int, _: int, z: real, g: Grey) => if BelowFloor(z) then g else GreyOf(z, minz, maxz));
    if minz < maxz {
      forall x, y | InGrid(x, y, width, height) && !BelowFloor(zbuf[Idx(x, y, width)])
        ensures img[Idx(x, y, width)].Grey?
      {
        GreyOfRange(zbuf[Idx(x, y, width)], minz, maxz);
      }
    }
  }
}

=== FILE: transform.dfy ===
/**
  The projection half of the camera state: `init_perspective` and
  `init_viewport`, with the inverses the shadow pass relies on when it
  reconstructs a point from its screen position and depth.
 */
module Transform {
  import opened Geometry

  /** `init_perspective(f)`: the identity, except for `-1/f` in row 3, column 2. */
  function Perspective(f: real): Mat4
    requires f != 0.0
  {
    Mat4(Vec4(1.0, 0.0, 0.0, 0.0),
         Vec4(0.0, 1.0, 0.0, 0.0),
         Vec4(0.0, 0.0, 1.0, 0.0),
         Vec4(0.0, 0.0, -1.0 / f, 1.0))
  }

  /** The matrix undoing the perspective map: it adds `z/f` back to `w`. */
  function PerspectiveInverse(f: real): Mat4
    requires f != 0.0
  {
    Mat4(Vec4(1.0, 0.0, 0.0, 0.0),
         Vec4(0.0, 1.0, 0.0, 0.0),
         Vec4(0.0, 0.0, 1.0, 0.0),
         Vec4(0.0, 0.0, 1.0 / f, 1.0))
  }

  /** The perspective map leaves x, y and z alone and lowers `w` by `z/f`. */
  lemma PerspectiveAction(f: real, v: Vec4)
    requires f != 0.0
    ensures MulVec(Perspective(f), v) == Vec4(v.x, v.y, v.z, v.w - v.z / f)
    ensures MulVec(PerspectiveInverse(f), v) == Vec4(v.x, v.y, v.z, v.w + v.z / f)
  {
    assert (-1.0 / f) * v.z == -(v.z / f);
    assert (1.0 / f) * v.z == v.z / f;
  }

  lemma PerspectiveRoundTrip(f: real, v: Vec4)
    requires f != 0.0
    ensures MulVec(PerspectiveInverse(f), MulVec(Perspective(f), v)) == v
    ensures MulVec(Perspective(f), MulVec(PerspectiveInverse(f), v)) == v
  {
    PerspectiveAction(f, v);
    PerspectiveAction(f, MulVec(Perspective(f), v));
    PerspectiveAction(f, MulVec(PerspectiveInverse(f), v));
  }

  /**
    `init_viewport(x, y, w, h)`: scales x and y by half the rectangle size and
    moves the origin to the rectangle's centre; z and w pass through.
   */
  function Viewport(x: int, y: int, w: int, h: int): Mat4 {
    ViewportOf(x as real, y as real, w as real, h as real)
  }

  /** The viewport matrix over real rectangle coordinates. */
  function ViewportOf(x: real, y: real, w: real, h: real): Mat4
  {
    Mat4(Vec4(w / 2.0, 0.0, 0.0, x + w / 2.0),
         Vec4(0.0, h / 2.0, 0.0, y + h / 2.0),
         Vec4(0.0, 0.0, 1.0, 0.0),
         Vec4(0.0, 0.0, 0.0, 1.0))
  }

  /**
    The viewport sends the corners of the normalised square to the corners
    of the pixel rectangle `[x, x+w] x [y, y+h]` and keeps the depth.
   */
  lemma ViewportCorners(x: int, y: int, w: int, h: int, z: real)
    ensures MulVec(Viewport(x, y, w, h), Vec4(-1.0, -1.0, z, 1.0)) == Vec4(x as real, y as real, z, 1.0)
    ensures MulVec(Viewport(x, y, w, h), Vec4(1.0, 1.0, z, 1.0)) == Vec4((x + w) as real, (y + h) as real, z, 1.0)
  {
    CornersOf(x as real, y as real, w as real, h as real, z);
  }

  lemma CornersOf(x: real, y: real, w: real, h: real, z: real)
    ensures MulVec(ViewportOf(x, y, w, h), Vec4(-1.0, -1.0, z, 1.0)) == Vec4(x, y, z, 1.0)
    ensures MulVec(ViewportOf(x, y, w, h), Vec4(1.0, 1.0, z, 1.0)) == Vec4(x + w, y + h, z, 1.0)
  {
  }

  /** A point of the normalised square lands inside the pixel rectangle. */
  lemma ViewportMapsSquare(x: int, y: int, w: int, h: int, p: Vec4)
    requires 0 <= w && 0 <= h && p.w == 1.0
    requires -1.0 <= p.x <= 1.0 && -1.0 <= p.y <= 1.0
    ensures var s := MulVec(Viewport(x, y, w, h), p);
      x as real <= s.x <= (x + w) as real && y as real <= s.y <= (y + h) as real && s.z == p.z
  {
    SquareOf(x as real, y as real, w as real, h as real, p);
  }

  lemma SquareOf(x: real, y: real, w: real, h: real, p: Vec4)
    requires 0.0 <= w && 0.0 <= h && p.w == 1.0
    requires -1.0 <= p.x <= 1.0 && -1.0 <= p.y <= 1.0
    ensures var s := MulVec(ViewportOf(x, y, w, h), p);
      x <= s.x <= x + w && y <= s.y <= y + h && s.z == p.z
  {
    var s := MulVec(ViewportOf(x, y, w, h), p);
    var dx, dy := HalfScale(w, p.x), HalfScale(h, p.y);
    assert s.x == x + dx;
    assert s.y == y + dy;
  }

  /** Half a non-negative length, scaled by `t + 1` for `t` in `[-1, 1]`, stays within the length. */
  function HalfScale(w: real, t: real): (d: real)
    requires 0.0 <= w && -1.0 <= t <= 1.0
    ensures 0.0 <= d <= w
  {
    assert w / 2.0 * (t + 1.0) + w / 2.0 * (1.0 - t) == w;
    w / 2.0 * (t + 1.0)
  }

  /** The matrix undoing the viewport map, for a non-degenerate rectangle. */
  function ViewportInverse(x: int, y: int, w: int, h: int): Mat4
    requires w != 0 && h != 0
  {
    ViewportInverseOf(x as real, y as real, w as real, h as real)
  }

  function ViewportInverseOf(x: real, y: real, w: real, h: real): Mat4
    requires w != 0.0 && h != 0.0
  {
    var hw, hh := w / 2.0, h / 2.0;
    Mat4(Vec4(1.0 / hw, 0.0, 0.0, -(x + hw) / hw),
         Vec4(0.0, 1.0 / hh, 0.0, -(y + hh) / hh),
         Vec4(0.0, 0.0, 1.0, 0.0),
         Vec4(0.0, 0.0, 0.0, 1.0))
  }

  lemma ViewportRoundTrip(x: int, y: int, w: int, h: int, v: Vec4)
    requires w != 0 && h != 0
    ensures MulVec(ViewportInverse(x, y, w, h), MulVec(Viewport(x, y, w, h), v)) == v
    ensures MulVec(Viewport(x, y, w, h), MulVec(ViewportInverse(x, y, w, h), v)) == v
  {
    RoundTripOf(x as real, y as real, w as real, h as real, v);
  }

  lemma RoundTripOf(x: real, y: real, w: real, h: real, v: Vec4)
    requires w != 0.0 && h != 0.0
    ensures MulVec(ViewportInverseOf(x, y, w, h), MulVec(ViewportOf(x, y, w, h), v)) == v
    ensures MulVec(ViewportOf(x, y, w, h), MulVec(ViewportInverseOf(x, y, w, h), v)) == v
  {
    var s := MulVec(ViewportOf(x, y, w, h), v);
    var t := MulVec(ViewportInverseOf(x, y, w, h), v);
    AffineRoundTrip(w / 2.0, x + w / 2.0, v.x, v.w);
    AffineRoundTrip(h / 2.0, y + h / 2.0, v.y, v.w);
  }

  /** Scaling by `a` and shifting by `c * w` is undone by the inverse shift and division. */
  lemma AffineRoundTrip(a: real, c: real, t: real, w: real)
    requires a != 0.0
    ensures ((a * t + c * w) - c * w) / a == t
    ensures a * ((t - c * w) / a) + c * w == t
  {
  }

  /**
    Screen coordinates and depth determine the camera-space point: the
    folded matrix `Viewport * Perspective` is undone by the folded inverse
    `PerspectiveInverse * ViewportInverse`, as the shadow pass's inverted
    matrix assumes.
   */
  lemma ScreenToCameraRoundTrip(x: int, y: int, w: int, h: int, f: real, v: Vec4)
    requires w != 0 && h != 0 && f != 0.0
    ensures MulVec(MatMul(PerspectiveInverse(f), ViewportInverse(x, y, w, h)),
                   MulVec(MatMul(Viewport(x, y, w, h), Perspective(f)), v)) == v
  {
    var p := MulVec(Perspective(f), v);
    MatMulAction(Viewport(x, y, w, h), Perspective(f), v);
    MatMulAction(PerspectiveInverse(f), ViewportInverse(x, y, w, h), MulVec(Viewport(x, y, w, h), p));
    ViewportRoundTrip(x, y, w, h, p);
    PerspectiveRoundTrip(f, v);
  }
}
